=== FILE: README.md ===
# A verified model of the cloud functions in `cloud.js`

`cloud.js` is the LeanCloud back end of a character chat app. Its cloud
functions cover several jobs:

- a handshake that lets a signed client version obtain a session token;
- a permission gate and a per-user daily quota for two paid capabilities,
  language-model calls (`llm`) and speech synthesis (`tts`);
- two proxy functions that forward those calls to the upstream providers and
  save the quota charge only when the upstream call succeeds;
- social and profile functions: likes, follows, nickname and bio, avatar,
  local character ids;
- two administrative functions that publish approved submissions and
  bulk-insert official characters.

This project models each of these as a pure Dafny function (or a method
where the source loops) over immutable records. Every database query result,
environment variable, clock reading, HMAC digest, random token and upstream
outcome becomes an explicit parameter. Every `AV.Cloud.Error` becomes an
`Err` value whose HTTP-style code is given by `Api.Code`.

Modules, one file each except `characters.dfy`, which holds two:

| file | module | models |
|---|---|---|
| `api.dfy` | `Api` | `Option`, `Result`, the error codes, `validateSessionAuth` |
| `jsstrings.dfy` | `JsStrings` | `trim`, `startsWith`, `replace` with a string pattern, `parseInt(s, 10)`, `String(n)` |
| `handshake.dfy` | `Handshake` | `handshake` |
| `roles.dfy` | `Roles` | `getUserRoles` |
| `quota.dfy` | `Quota` | `checkAndIncrementUsage` |
| `permission.dfy` | `Permission` | `getApiPermission` |
| `providers.dfy` | `Providers` | `getApiKey`, the LLM endpoint table |
| `proxy.dfy` | `Proxy` | `proxyLlmRequest`, `proxyTtsRequest` |
| `likes.dfy` | `Likes` | `toggleLikeCharacter` |
| `profile.dfy` | `Profile` | `updateUserProfile` |
| `follow.dfy` | `Follow` | `followUser`, `unfollowUser` |
| `characters.dfy` | `Characters`, `LocalIds` | the `Character` row; `generateNewLocalCharacterId` |
| `publish.dfy` | `Publishing` | `publishApprovedCharacters` |
| `batchadd.dfy` | `BatchAdd` | `batchAddOfficialCharacters` |
| `avatar.dfy` | `Avatar` | `saveUserAvatarUrl` |

Conventions used throughout:

- Where the source tests a parameter for truthiness (`!x`), its falsy
  `undefined`, `null` and `""` values are all the empty string. Where the
  source tells `undefined` apart from other values, the parameter is an
  `Option` instead. This applies to `username` and `bio` in
  `updateUserProfile`, which are tested with `!== undefined`: there `""` is
  a present nickname (and too short) or a present bio (and stored), and a
  `null` bio is present but not a string. It also applies to `messages` in
  `proxyLlmRequest`, where an empty array is present.
- A counter or list that was never set is the default the source reads it
  as: `|| 0` and `|| []`.
- `Math.max` over no values is `-Infinity`, written `Ceiling.MinusInfinity`.
- A proxy call is split into two parts. The plan is the ordered checks
  before the network call. The exchange takes the upstream outcome
  (`Delivered` or `Failed`) and yields the reply together with the user
  record the store holds afterwards (`Exchange.stored`). This models "the old
  principal versus the committed principal".

## Model

| member | source | states |
|---|---|---|
| Api.CheckSession | cloud.js:13-18 | a call passes the session check exactly when the header is non-empty; otherwise the error code is 403 |
| JsStrings.Trim | cloud.js:331 | `trim` returns an infix of the input; everything cut from either end is white space, and the result neither starts nor ends with white space |
| JsStrings.ParseInt | cloud.js:25 | `parseInt(s, 10)` gives a number exactly when, after the leading white space, a digit comes first or a sign followed by a digit; otherwise NaN; the result is negative only after a '-' and never negative without one |
| JsStrings.ParseIntReads | cloud.js:25 | the value `parseInt(s, 10)` reads: leading white space is skipped, a '+' or no sign gives `n` and a '-' gives `-n`, leading zeros do not count, and text after the digits that does not start with a digit is ignored |
| JsStrings.ParseRender | cloud.js:25 | `parseInt` reads back the decimal string of any integer, including a negative one, and ignores any non-digit text after it |
| JsStrings.ReplaceFirst | cloud.js:412 | `replace` with a string pattern: a string that starts with the pattern has that prefix replaced; a string without the pattern is returned unchanged |
| JsStrings.ReplaceFirstOccurrence | cloud.js:412 | only the first occurrence of the pattern is replaced, and the text before it and after it is kept |
| JsStrings.ReplacePrefix | cloud.js:412 | `replace(p, '')` on a string that starts with `p` removes exactly that prefix |
| Handshake.VersionPolicy | cloud.js:43-57 | an unknown version is 'blocked' with the default message and an empty URL; a known version reports its stored row; a token is issued exactly when the status is 'active' |
| Handshake.HandshakeWith | cloud.js:20-63 | given the timestamp as `parseInt` reads it, the checks are made in order: missing parameter (400), a parsed timestamp more than 300 s away (408), unset root key (500), HMAC of "version\|timestamp" differs from the signature (403); each error occurs exactly when the earlier checks pass and its own fails; the call succeeds exactly when all four pass, with the version policy as its reply |
| Handshake.Handshake | cloud.js:20-63 | the `handshake` function on the raw timestamp string: 400 exactly without all three parameters, 408 exactly when `parseInt` reads a time more than 300 s away, and success exactly when every check passes, with the version policy as the reply; every error is one of 400, 408, 500, 403 |
| Handshake.StaleIsRefused | cloud.js:25-29 | a decimal timestamp more than 300 s from the server clock gives 408 whatever the signature and whether or not the root key is set |
| Handshake.HonestClientAdmitted | cloud.js:25-57 | a fresh decimal timestamp signed with the root key passes every check, and the client gets a token exactly when its version is configured 'active' |
| Handshake.UnreadableTimestampIsNeverStale | cloud.js:25-29 | a timestamp `parseInt` cannot read (NaN) never fails the freshness check, whatever the server clock; with a valid signature the request is admitted |
| Roles.UserRoles | cloud.js:75-85 | 'User' is always present; no user gives ['User']; the queried names are kept in order as a prefix, and 'User' is appended only when it is missing |
| Roles.RoleSetIsUnionWithUser | cloud.js:75-85 | as a set, the resolved roles are the queried roles plus 'User' |
| Quota.Increment | cloud.js:129 | the charged capability's counter rises by exactly one; the other counter, the id and the date are unchanged |
| Quota.Rollover | cloud.js:110-120 | the date becomes today; on a new day both counters become 0; on the same day the record is unchanged |
| Quota.DailyLimit | cloud.js:122-123 | the limit is minus infinity exactly when there are no rows; otherwise it bounds every row's limit (absent counts as 0) and equals one of them |
| Quota.Charge | cloud.js:109-131 | the call is admitted exactly when the usage after the rollover is below the limit; if admitted, only that capability's counter rises by one (from 0 on a new day); otherwise the error is 429 and carries the limit |
| Quota.AdmitsExactlyTheRemainder | cloud.js:109-131 | of n calls made on one day, exactly min(n, max(limit − usage, 0)) are admitted; each admitted call adds one; while none is admitted the stored record is untouched |
| Permission.Matching | cloud.js:145-147 | the rows used are exactly the table rows whose role name is among the user's roles |
| Permission.HistoryLimit | cloud.js:153 | the history cap bounds every applicable row's `historyLimit` (an absent value counts as 15) and equals one of them |
| Permission.GetApiPermission | cloud.js:134-159 | no user gives 401; an admin gets history −1 and nothing to save; 500 occurs exactly when no table row names one of the user's roles or 'User'; otherwise the quota verdict decides: the gate passes exactly when the charge is admitted, and its error is the charge's 429 unchanged; a success carries the charged principal and the maximum history cap; a 429 never reaches an admin |
| Providers.GetApiKey | cloud.js:92-106 | a key is returned exactly when the provider is in the key map and its key is set; otherwise the error is 500 naming the provider |
| Providers.EndpointsNeedKeys | cloud.js:176-185 | every chat endpoint's provider has a key entry; the key entries without an endpoint are exactly 'minimax' and 'minimax_group' |
| Proxy.LlmPlan | cloud.js:163-193 | 403 without a header, then the gate's own error, then 400 for a missing provider, model or message list, then 500 naming the provider when `getApiKey` finds no key (unknown provider or unset key), then 400 for a provider without a chat endpoint; a plan exists exactly when all of these pass; the request is that endpoint, the server key, the caller's model and messages, streaming on, and the grant is the gate's |
| Proxy.ProxyLlm | cloud.js:163-222 | a failing plan is answered with its error; a passing plan with a rejected upstream is a 502 naming the provider; a passing plan with a delivered upstream succeeds, relays the payload and stores the gate's charged record (an admin's record is unchanged); every error leaves the stored record as it was |
| Proxy.LlmQuotaBeforeParams | cloud.js:164-172 | a caller out of quota gets 429 even when its parameters are also missing, and nothing is stored |
| Proxy.LlmChargedOnlyOnDelivery | cloud.js:197-221 | a rejected upstream is always an error that stores nothing, and a 502 once every check passes; once every check passes, a delivered upstream relays the payload and a non-admin's stored record gains one llm call after the day rollover |
| Proxy.ProviderResolution | cloud.js:176-193 | after the gate and the parameter check: a provider the key map does not know, or a listed one whose key is unset, gives 500 before the endpoint lookup; a configured MiniMax entry gives 400; a configured chat provider gets a streaming request with the caller's model and messages |
| Proxy.EmotionKey | cloud.js:254-262 | the voice settings come from the requested emotion when it has settings, and otherwise from 'neutral' |
| Proxy.VoiceChoice | cloud.js:240-250 | a custom voice succeeds exactly when both its key and its voice id are given, and it uses them, otherwise the error is the 400 for an incomplete custom voice; a system voice succeeds exactly when the MiniMax key is set, and it uses that key with the requested voice or 'female-yujie', otherwise the error is the 500 naming 'minimax' |
| Proxy.TtsPlan | cloud.js:227-276 | 403 without a header, then the gate's error, then 400 for missing text or voice type, then the voice choice's error, then 500 for an unset group id; a plan exists exactly when all of these pass; the request is the group-id URL, the chosen key and voice, model 'speech-02-hd', 24000 Hz, 128000 bit/s and mp3 |
| Proxy.ProxyTts | cloud.js:227-304 | as for the LLM proxy: a failing plan gives its error, a rejected upstream a 502, and a delivered upstream a success that relays the payload and stores the charged record (never for an admin); a success sends the caller's text with the chosen key and voice |
| Proxy.TtsFirstCallOfDay | cloud.js:291-295 | on a new day, a failed synthesis leaves the stored date and counters as they were, while a delivered one stores today with tts 1 and llm 0 |
| Likes.IndexOf | cloud.js:590 | `indexOf` gives the first position that holds the id, and no position exactly when the id is absent |
| Likes.Toggle | cloud.js:589-598 | an absent id is appended with a step of +1; otherwise its first occurrence is spliced out with a step of −1 |
| Likes.StepMatchesList | cloud.js:591-600 | the like-count step equals the change in how many times the list holds the id; the counts of all other ids are unchanged |
| Likes.ToggleFlips | cloud.js:589-598 | on a list without repeats, a toggle flips whether the id is liked and leaves no repeats |
| Likes.ToggleTwiceRestores | cloud.js:589-598 | toggling an id that is not liked, twice, gives back the original list |
| Likes.ToggleLikeCharacter | cloud.js:563-607 | 403, 401 and 400 (non-numeric id) in order, and success exactly when all pass; the new list is the toggle of the old one: every other id is held exactly as often as before, and on a list without repeats the id's membership flips; the like count is present exactly when the character exists and moves by the change in the list |
| Profile.UpdateUserProfile | cloud.js:323-350 | an absent field is kept; a nickname is stored trimmed, 2 to 15 long, and is either the user's own name or one nobody has; 400 for a bad length, 409 for a taken name and 400 for a bad bio, each exactly when it is the first check to fail; the form is accepted exactly when the session, the user, the nickname and the bio checks all pass |
| Profile.ResubmitIsIdempotent | cloud.js:335-343 | submitting an accepted form again is accepted with the same profile, although the user's own name is now taken |
| Follow.Bump | cloud.js:479-481 | `increment` moves one user's counter by the step (an unset counter counts as 0) and no other counter |
| Follow.FollowUser | cloud.js:449-484 | 403, 401, 400 (no target), 400 (oneself), each when it is the first check to fail, and success exactly when all pass; the edge is present afterwards; an existing edge changes nothing; otherwise the follower's and the target's counters rise by one and no other counter moves |
| Follow.UnfollowUser | cloud.js:486-510 | 403, 401, 400 (no target), each when it is the first check to fail, and success exactly when all pass; the edge is absent afterwards; a missing edge changes nothing; otherwise both counters fall by one and no other counter moves |
| Follow.FollowKeepsCounts | cloud.js:470-482 | following keeps every counter equal to the number of edges it counts |
| Follow.UnfollowKeepsCounts | cloud.js:496-508 | unfollowing keeps every counter equal to the number of edges it counts |
| Follow.FollowIsIdempotent | cloud.js:462-469 | following a second time reports 'already following' and changes nothing |
| Follow.FollowThenUnfollow | cloud.js:449-510 | a new follow undone by an unfollow leaves a state no client can tell from the original |
| LocalIds.NextLocalId | cloud.js:549-561 | 403, then 401, and success exactly when both pass; the id handed out is the previous counter minus one, which is also the new counter |
| LocalIds.AllocateLocalIds | cloud.js:555-560 | n calls in a row hand out strictly decreasing ids, all below the starting counter, and the counter ends n lower |
| Publishing.StartId | cloud.js:809-813 | numbering starts from the largest existing id, or from 0 when there is none |
| Publishing.CreatedNumbering | cloud.js:818-844 | the created characters' ids strictly increase and lie in (start, start + n]; each character is the one the k-th submission builds with id start + k + 1 |
| Publishing.EveryAttemptReported | cloud.js:815-852 | every submission is counted exactly once, as published or as failed |
| Publishing.PublishApproved | cloud.js:799-858 | with no submissions the result is "nothing to publish"; otherwise the loop's characters, published ids and failed ids are exactly those of the whole-list definitions |
| Publishing.NewIdsAreFresh | cloud.js:809-824 | every new id is above every existing id |
| Publishing.FailedIdIsSkipped | cloud.js:824-850 | no character receives the id of a submission that created nothing: a failure still uses up its id |
| Publishing.StatusFailureStillCreates | cloud.js:844-850 | a submission whose status save fails is reported failed, yet its character has been created |
| BatchAdd.ValidateMeaning | cloud.js:878-885 | the item checks pass exactly when every id is numeric and no id repeats; the ids seen are those of the items |
| BatchAdd.FirstErrorWins | cloud.js:878-884 | the first failing item decides the error of the whole list |
| BatchAdd.CheckItems | cloud.js:875-897 | the loop builds one character per item, in order (an empty name becomes '未命名'), or gives the error of the first bad item |
| BatchAdd.BatchAddOfficialCharacters | cloud.js:860-913 | non-admins get 403 and a malformed payload 400; success happens exactly when the list is empty, or when it is clean and none of its ids exists; a clean list with ids already in the table gets 409 listing exactly the clashing ids; the first bad item's error otherwise; nothing is saved on any error |
| Avatar.StaleKey | cloud.js:410-413 | the old key is proposed for deletion only when there was an old URL and the derived key is non-empty, differs from the new key and starts with 'user_avatars/' |
| Avatar.OldKeyOfAvatarUrl | cloud.js:406-412 | stripping "bucketUrl/" from a URL built as bucketUrl + "/" + key gives back the key |
| Avatar.SaveUserAvatarUrl | cloud.js:391-445 | 403, 401, 400 (no key) and 500 (no bucket URL), in that order, and success exactly when all four pass; the new URL yields its key again, and the deletion proposal is the one the stale-key rule gives |
| Avatar.ReplacingDeletesThePrevious | cloud.js:410-413 | replacing an avatar stored under 'user_avatars/' deletes the old object exactly when the keys differ |
| Avatar.ForeignAvatarIsKept | cloud.js:410-413 | an old URL not under "bucketUrl/" keeps its whole text as the derived key, so it is deleted only if that text itself starts with 'user_avatars/' |

## Left out

- Persistence. LeanCloud queries and saves, `AV.Role` lookups, the `_User`
  afterSave hook and every paging query are not modelled; query results are
  parameters (`memberRoles`, `table`, `configs`, `takenNames`, `existing`).
- Failing saves and deletes are not modelled. Every `save`, `saveAll` and
  `destroy` is assumed to succeed. Where the source maps the failure to an
  error, it does so as follows: the profile save gives 409 for LeanCloud's
  202 and 500 otherwise; the joint user-and-character save of
  `toggleLikeCharacter` gives 500; the batch `saveAll` gives 500; and a
  failing `userToUpdate.save` after an upstream success gives 502. The
  source does not catch these failures, which escape as they are: the
  like-list save when the character is missing, the counter save of
  `generateNewLocalCharacterId`, the avatar URL save, and `newFollow.save`,
  `followRecord.destroy` and the counter `saveAll` of the follow functions.
- Query paging. The existing-id query of `batchAddOfficialCharacters` sets
  no limit, so LeanCloud returns at most its default page of 100 rows; the
  model's 409 lists every clashing id.
- `isAdmin` is a boolean input, because it is a role query.
- Network calls. The axios requests, the piping of the response stream,
  response headers, and the request's `temperature: 1.2` are left out. The
  upstream outcome is an input.
- Cryptography. HMAC-SHA256 is an uninterpreted function parameter.
  `crypto.randomBytes` is a supplied token.
- The clock. `Date.now` and `toISOString` are inputs: `serverNow` in
  seconds, and `today`.
- The Qiniu SDK. Upload tokens and the bucket delete with its status
  handling are left out; the model only decides which key is handed to the
  delete. `getQiniuUserAvatarUploadToken` is left out too.
- Floating point. The numeric emotion voice settings are left out; only the
  choice of settings key is modelled.
- Numeric precision. `parseInt` of very long digit strings is exact here;
  JavaScript rounds it to a double.
- Concurrency. The in-memory increment followed by a later save has no
  atomic guard. Racing requests, and the resulting over-admission, are not
  modelled.
- Session authenticity. Only the presence of the header is checked, as in
  the source.
- String length. A character stands for one UTF-16 code unit. Lengths of
  strings containing astral characters are not distinguished.
- Parameter types other than the ones modelled:
  - a non-string `username` (its `.trim()` throws);
  - `messages` given as a non-array truthy value;
  - a `characterId` or batch id that is a non-integer number or `NaN`;
  - the `timestamp` sent as a JSON number.
- Key lookup through the object prototype. A provider named e.g.
  `constructor` finds an inherited value in a JavaScript object literal.
  Here only the listed keys exist. The same holds for the emotion lookup
  in `emotionVoiceSettings` (cloud.js:262): for an emotion such as
  `constructor` the source finds an inherited value and sends no speed,
  volume or pitch, while `Proxy.EmotionKey` falls back to 'neutral'.
- Absent fields and ids in `publishApprovedCharacters`. An absent text
  field is stored as `undefined` by the source, but as the empty string
  here. A top character without an `id` makes the source's `maxId` `NaN`;
  this is not modelled.
- Quota.AdmitsExactlyTheRemainder: requires at least one permission row,
  because with none every call is refused (`Quota.Charge` states that case)
  and there is no finite limit to count against.
- Other cloud functions: `hello`, `getFollowers`, `getFollowing`,
  `incrementChatCount`, `getQiniuUploadToken`, the search and public-profile
  functions, and the remaining administrative functions. They are not part of
  this model.
- `server.js` and `app.js` (Express wiring) are not part of this model.

=== FILE: api.dfy ===
/** Values shared by every cloud function: optional values, the capabilities
    that carry a daily quota, the errors the functions raise (each with the
    HTTP-style code the client sees), and a failure-compatible Result. */
module Api {

  /** A value that may be absent (a JavaScript `undefined` or `null`). */
  datatype Option<+T> = None | Some(value: T) {

    /** The value, or `default` when it is absent (JavaScript `??`). */
    function GetOr(default: T): T {
      match this
      case Some(v) => v
      case None => default
    }
  }

  /** The two gated capabilities, `usageType` 'llm' and 'tts'. */
  datatype Capability = Llm | Tts

  /** The result of `Math.max` over the permission rows' limits: an empty
      row list yields minus infinity, which no usage count is below. */
  datatype Ceiling = MinusInfinity | Finite(n: int) {

    /** True when a usage count of `usage` is still under this ceiling. */
    predicate Admits(usage: int) {
      Finite? && usage < n
    }
  }

  /** Every error a modelled cloud function raises. */
  datatype ApiError =
    | InvalidClient                       // no session header
    | NotLoggedIn                         // no current user
    | HandshakeParamsMissing
    | RequestExpired                      // handshake timestamp outside the window
    | RootKeyUnset
    | SignatureInvalid
    | PermissionRowsMissing               // no RolePermission row for the user's roles
    | QuotaExceeded(capability: Capability, limit: Ceiling)
    | LlmParamsMissing
    | TtsParamsMissing
    | CustomVoiceIncomplete
    | KeyUnset(provider: string)          // provider absent from the key map, or its key unset
    | UnsupportedProvider(provider: string)
    | UpstreamFailed(service: string)
    | NicknameLength
    | NicknameTaken
    | BioInvalid
    | CharacterIdNotNumber
    | TargetMissing
    | SelfFollow
    | AvatarKeyMissing
    | BucketUrlUnset
    | AdminOnly
    | PayloadMalformed
    | IdNotNumber(index: nat)
    | DuplicateId(id: int)
    | IdsExist(ids: set<int>)

  /** The code attached to each error (`{ code: … }` in the source). */
  function Code(e: ApiError): int {
    match e
    case InvalidClient => 403
    case NotLoggedIn => 401
    case HandshakeParamsMissing => 400
    case RequestExpired => 408
    case RootKeyUnset => 500
    case SignatureInvalid => 403
    case PermissionRowsMissing => 500
    case QuotaExceeded(_, _) => 429
    case LlmParamsMissing => 400
    case TtsParamsMissing => 400
    case CustomVoiceIncomplete => 400
    case KeyUnset(_) => 500
    case UnsupportedProvider(_) => 400
    case UpstreamFailed(_) => 502
    case NicknameLength => 400
    case NicknameTaken => 409
    case BioInvalid => 400
    case CharacterIdNotNumber => 400
    case TargetMissing => 400
    case SelfFollow => 400
    case AvatarKeyMissing => 400
    case BucketUrlUnset => 500
    case AdminOnly => 403
    case PayloadMalformed => 400
    case IdNotNumber(_) => 400
    case DuplicateId(_) => 400
    case IdsExist(_) => 409
  }

  /** A cloud function's outcome: a value, or the error it throws. */
  datatype Result<+T> = Ok(value: T) | Err(error: ApiError) {

    predicate IsFailure() {
      Err?
    }

    function PropagateFailure<U>(): Result<U>
      requires Err?
    {
      Err(error)
    }

    function Extract(): T
      requires Ok?
    {
      value
    }
  }

  /** `validateSessionAuth`: the session header only has to be present and
      non-empty; its value is never compared with a minted token. */
  function CheckSession(header: string): (r: Result<()>)
    ensures r.Ok? <==> |header| > 0
    ensures r.Err? ==> Code(r.error) == 403
  {
    if header == "" then Err(InvalidClient) else Ok(())
  }
}

=== FILE: avatar.dfy ===
/** `saveUserAvatarUrl` (cloud.js:391-446): the new avatar URL is the bucket
    URL, a slash and the uploaded key; the previous URL's key is recovered
    by cutting the first "bucketUrl/" out of it, and that old object is
    deleted only when the key is non-empty, differs from the new key and
    lies under "user_avatars/". The deletion itself is storage I/O; the
    model decides which key, if any, it is asked for. */
module Avatar {
  import opened Api
  import opened JsStrings

  const AvatarPrefix := "user_avatars/"

  function AvatarUrl(bucketUrl: string, key: string): string {
    bucketUrl + "/" + key
  }

  /** `oldAvatarUrl.replace(bucketUrl + '/', '')`. */
  function OldKey(oldUrl: string, bucketUrl: string): string {
    ReplaceFirst(oldUrl, bucketUrl + "/", "")
  }

  /** The key to delete after the new URL is saved, if any. An unset old
      URL (empty) deletes nothing. */
  function StaleKey(oldUrl: string, bucketUrl: string, newKey: string): (r: Option<string>)
    ensures r.Some? ==>
      && oldUrl != "" && r.value == OldKey(oldUrl, bucketUrl)
      && r.value != "" && r.value != newKey && StartsWith(r.value, AvatarPrefix)
    ensures r.None? ==>
      || oldUrl == ""
      || OldKey(oldUrl, bucketUrl) == "" || OldKey(oldUrl, bucketUrl) == newKey
      || !StartsWith(OldKey(oldUrl, bucketUrl), AvatarPrefix)
  {
    if oldUrl == "" then None
    else
      var oldKey := OldKey(oldUrl, bucketUrl);
      if oldKey != "" && oldKey != newKey && StartsWith(oldKey, AvatarPrefix) then Some(oldKey) else None
  }

  /** A URL this function wrote gives back exactly the key it was made from. */
  lemma OldKeyOfAvatarUrl(bucketUrl: string, key: string)
    ensures OldKey(AvatarUrl(bucketUrl, key), bucketUrl) == key
  {
    var url := AvatarUrl(bucketUrl, key);
    assert url == (bucketUrl + "/") + key;
    assert StartsWith(url, bucketUrl + "/");
    ReplacePrefix(url, bucketUrl + "/");
    assert url[|bucketUrl + "/"|..] == key;
  }

  datatype AvatarChange = AvatarChange(avatarUrl: string, deleteKey: Option<string>)

  /** The whole call: 403, 401, 400 without a key, 500 without a bucket URL;
      then the new URL and the old object to delete. `oldUrl` is None when
      there is no current user, else the stored `avatarUrl` (unset: ""). */
  function SaveUserAvatarUrl(header: string, oldUrl: Option<string>, newKey: string, bucketUrl: string)
    : (r: Result<AvatarChange>)
    ensures |header| == 0 ==> r == Err(InvalidClient)
    ensures |header| > 0 && oldUrl.None? ==> r == Err(NotLoggedIn)
    ensures |header| > 0 && oldUrl.Some? && newKey == "" ==> r == Err(AvatarKeyMissing)
    ensures |header| > 0 && oldUrl.Some? && newKey != "" && bucketUrl == "" ==> r == Err(BucketUrlUnset)
    ensures r.Ok? <==> |header| > 0 && oldUrl.Some? && newKey != "" && bucketUrl != ""
    ensures r.Ok? ==>
      && OldKey(r.value.avatarUrl, bucketUrl) == newKey
      && StartsWith(r.value.avatarUrl, bucketUrl + "/")
      && r.value.deleteKey == StaleKey(oldUrl.value, bucketUrl, newKey)
  {
    var _ :- CheckSession(header);
    if oldUrl.None? then Err(NotLoggedIn)
    else if newKey == "" then Err(AvatarKeyMissing)
    else if bucketUrl == "" then Err(BucketUrlUnset)
    else
      OldKeyOfAvatarUrl(bucketUrl, newKey);
      Ok(AvatarChange(AvatarUrl(bucketUrl, newKey), StaleKey(oldUrl.value, bucketUrl, newKey)))
  }

  /** Replacing an avatar this function stored under "user_avatars/" asks
      for the old object to be deleted exactly when the keys differ; saving
      the same key again deletes nothing. */
  lemma ReplacingDeletesThePrevious(bucketUrl: string, oldKey: string, newKey: string)
    requires StartsWith(oldKey, AvatarPrefix)
    ensures StaleKey(AvatarUrl(bucketUrl, oldKey), bucketUrl, newKey) ==
              (if oldKey == newKey then None else Some(oldKey))
  {
    OldKeyOfAvatarUrl(bucketUrl, oldKey);
  }

  /** An old URL that is not under "bucketUrl/" (an avatar from elsewhere)
      keeps its whole text as the derived key, so unless that text itself
      starts with "user_avatars/" nothing is deleted. */
  lemma ForeignAvatarIsKept(oldUrl: string, bucketUrl: string, newKey: string)
    requires forall k :: 0 <= k <= |oldUrl| ==> !MatchAt(oldUrl, bucketUrl + "/", k)
    requires !StartsWith(oldUrl, AvatarPrefix)
    ensures OldKey(oldUrl, bucketUrl) == oldUrl
    ensures StaleKey(oldUrl, bucketUrl, newKey) == None
  {
    ReplaceAbsent(oldUrl, bucketUrl + "/");
  }
}

=== FILE: batchadd.dfy ===
/** `batchAddOfficialCharacters` (cloud.js:860-914): an admin-only bulk
    insert. The payload is either the array itself or an object holding it
    as `charactersData`. Every item must carry a numeric id, no id may occur
    twice, and no id may already be in the table; any violation throws
    before anything is saved. The existing ids come in as a set, standing
    for the `containedIn('id', …)` query. */
module BatchAdd {
  import opened Api
  import opened Characters

  const DefaultName := "未命名"

  /** A batch item; `id` is None when it is not a number. */
  datatype CharacterInput = CharacterInput(id: Option<int>, text: CharacterText, imageUrl: string)

  datatype Payload = Bare(items: seq<CharacterInput>) | Wrapped(charactersData: seq<CharacterInput>) | Malformed

  datatype BatchReply = NothingToAdd | Added(saved: seq<Character>)

  function Items(p: Payload): seq<CharacterInput>
    requires !p.Malformed?
  {
    if p.Bare? then p.items else p.charactersData
  }

  /** The character saved for an item: an empty name becomes the default. */
  function Build(item: CharacterInput, id: int): Character {
    var name := if item.text.name == "" then DefaultName else item.text.name;
    Character(id, item.text.(name := name), item.imageUrl, None)
  }

  /** Every id numeric and no id twice. */
  predicate Clean(items: seq<CharacterInput>) {
    && (forall i :: 0 <= i < |items| ==> items[i].id.Some?)
    && (forall i, j :: 0 <= i < j < |items| ==> items[i].id != items[j].id)
  }

  function IdSet(items: seq<CharacterInput>): set<int> {
    set i | 0 <= i < |items| && items[i].id.Some? :: items[i].id.value
  }

  /** The checks on one more item: the `i`-th item is judged against the
      ids seen before it. */
  function CheckOne(prior: Result<set<int>>, item: CharacterInput, i: nat): Result<set<int>> {
    match prior
    case Err(e) => Err(e)
    case Ok(seen) =>
      if item.id.None? then Err(IdNotNumber(i))
      else if item.id.value in seen then Err(DuplicateId(item.id.value))
      else Ok(seen + {item.id.value})
  }

  /** The per-item checks, in order: the ids seen, or the error for the
      first item that is not a number or repeats an earlier id. */
  function Validate(items: seq<CharacterInput>): Result<set<int>> {
    if |items| == 0 then Ok({})
    else CheckOne(Validate(items[..|items| - 1]), items[|items| - 1], |items| - 1)
  }

  /** The checks pass exactly on a clean list, and then the ids seen are the
      list's ids; a failure is one of the two item errors. */
  lemma {:induction false} ValidateMeaning(items: seq<CharacterInput>)
    ensures Validate(items).Ok? <==> Clean(items)
    ensures Validate(items).Ok? ==> Validate(items).value == IdSet(items)
    ensures Validate(items).Err? ==> Validate(items).error.IdNotNumber? || Validate(items).error.DuplicateId?
  {
    if |items| > 0 {
      var n := |items|;
      var front := items[..n - 1];
      var last := items[n - 1];
      ValidateMeaning(front);
      assert forall i :: 0 <= i < n - 1 ==> front[i] == items[i];
      match Validate(front)
      case Err(_) =>
        assert !Clean(front);
      case Ok(seen) =>
        if last.id.Some? && last.id.value in seen {
          var j :| 0 <= j < n - 1 && front[j].id.Some? && front[j].id.value == last.id.value;
          assert items[j].id == items[n - 1].id;
        } else if last.id.Some? {
          assert IdSet(items) == seen + {last.id.value};
        }
    }
  }

  lemma ValidateStep(items: seq<CharacterInput>, i: nat)
    requires i < |items|
    ensures Validate(items[..i + 1]) == CheckOne(Validate(items[..i]), items[i], i)
  {
    var p := items[..i + 1];
    assert p[..i] == items[..i];
    assert p[i] == items[i];
  }

  /** Once a prefix fails, the whole list fails with the same error: the
      first bad item decides. */
  lemma {:induction false} FirstErrorWins(items: seq<CharacterInput>, k: nat)
    requires k <= |items|
    requires Validate(items[..k]).Err?
    ensures Validate(items) == Validate(items[..k])
    decreases |items| - k
  {
    if k < |items| {
      ValidateStep(items, k);
      FirstErrorWins(items, k + 1);
    } else {
      assert items[..k] == items;
    }
  }

  /** The loop over the items: the characters to save, built in order, or
      the first item's error. */
  method CheckItems(items: seq<CharacterInput>) returns (r: Result<seq<Character>>)
    ensures Validate(items).Err? ==> r == Err(Validate(items).error)
    ensures Validate(items).Ok? ==>
      && r.Ok? && |r.value| == |items|
      && forall k :: 0 <= k < |items| ==> items[k].id.Some? && r.value[k] == Build(items[k], items[k].id.value)
  {
    var seen: set<int> := {};
    var toSave: seq<Character> := [];
    var i := 0;
    while i < |items|
      invariant 0 <= i <= |items|
      invariant Validate(items[..i]) == Ok(seen)
      invariant |toSave| == i
      invariant forall k :: 0 <= k < i ==> items[k].id.Some? && toSave[k] == Build(items[k], items[k].id.value)
    {
      var item := items[i];
      var next := CheckOne(Ok(seen), item, i);
      ValidateStep(items, i);
      if next.Err? {
        FirstErrorWins(items, i + 1);
        return Err(next.error);
      }
      seen := next.value;
      toSave := toSave + [Build(item, item.id.value)];
      i := i + 1;
    }
    assert items[..i] == items;
    return Ok(toSave);
  }

  method BatchAddOfficialCharacters(admin: bool, payload: Payload, existing: set<int>)
    returns (r: Result<BatchReply>)
    ensures !admin ==> r == Err(AdminOnly)
    ensures admin && payload.Malformed? ==> r == Err(PayloadMalformed)
    ensures r.Ok? <==>
      admin && !payload.Malformed? &&
      (|Items(payload)| == 0 || (Clean(Items(payload)) && IdSet(Items(payload)) !! existing))
    ensures r.Ok? && |Items(payload)| == 0 ==> r.value == NothingToAdd
    ensures r.Ok? && |Items(payload)| > 0 ==>
      && r.value.Added? && |r.value.saved| == |Items(payload)|
      && forall i :: 0 <= i < |Items(payload)| ==>
           Items(payload)[i].id.Some? && r.value.saved[i] == Build(Items(payload)[i], Items(payload)[i].id.value)
    ensures admin && !payload.Malformed? && |Items(payload)| > 0 && Validate(Items(payload)).Err? ==>
      r == Err(Validate(Items(payload)).error)
    ensures admin && !payload.Malformed? && Clean(Items(payload)) && !(IdSet(Items(payload)) !! existing) ==>
      r == Err(IdsExist(IdSet(Items(payload)) * existing))
    ensures r.Err? && r.error.IdsExist? ==>
      Clean(Items(payload)) && r.error.ids == IdSet(Items(payload)) * existing && r.error.ids != {}
  {
    if !admin {
      return Err(AdminOnly);
    }
    if payload.Malformed? {
      return Err(PayloadMalformed);
    }
    var items := Items(payload);
    if |items| == 0 {
      return Ok(NothingToAdd);
    }
    ValidateMeaning(items);
    var checked := CheckItems(items);
    if checked.Err? {
      return Err(checked.error);
    }
    var ids := Validate(items).value;
    var conflicts := ids * existing;
    if conflicts != {} {
      return Err(IdsExist(conflicts));
    }
    assert forall x :: x in ids ==> x !in existing by {
      forall x | x in ids
        ensures x !in existing
      {
        assert x in existing ==> x in conflicts;
      }
    }
    return Ok(Added(checked.value));
  }
}

=== FILE: characters.dfy ===
/** A row of the `Character` table, as the administrative functions build
    it (cloud.js:825-842, 886-896). Absent text fields are empty strings
    and absent tags an empty list. */
module Characters {
  import opened Api

  datatype Author = Author(userId: string, username: string)

  /** The descriptive fields a submission or a batch item carries. */
  datatype CharacterText = CharacterText(
    name: string,
    description: string,
    characterPrompt: string,
    userProfilePrompt: string,
    storyBackgroundPrompt: string,
    storyStartPrompt: string,
    tags: seq<string>)

  datatype Character = Character(id: int, text: CharacterText, imageUrl: string, author: Option<Author>)
}

/** `generateNewLocalCharacterId` (cloud.js:549-561): the user's
    `localCharIdCounter` (unset: 0) steps down by one and its new value is
    the id handed out. While the counter starts at 0 or below, every id
    handed out is negative and so never meets the positive ids that
    publishing numbers characters with; batch-added official ids may be
    any number and are not kept apart from them. */
module LocalIds {
  import opened Api

  /** `counter` is None when there is no current user, else the stored
      counter; the result is the new id, which is also the new counter. */
  function NextLocalId(header: string, counter: Option<int>): (r: Result<int>)
    ensures |header| == 0 ==> r == Err(InvalidClient)
    ensures |header| > 0 && counter.None? ==> r == Err(NotLoggedIn)
    ensures r.Ok? <==> |header| > 0 && counter.Some?
    ensures r.Ok? ==> r.value == counter.value - 1
  {
    var _ :- CheckSession(header);
    if counter.None? then Err(NotLoggedIn) else Ok(counter.value - 1)
  }

  /** `n` calls in a row: every id is fresh (smaller than every earlier one
      and than the starting counter), and the counter ends `n` lower. */
  method AllocateLocalIds(header: string, start: int, n: nat) returns (ids: seq<int>, counter: int)
    requires |header| > 0
    ensures |ids| == n && counter == start - n
    ensures forall i, j :: 0 <= i < j < n ==> ids[i] > ids[j]
    ensures forall i :: 0 <= i < n ==> counter <= ids[i] < start
  {
    ids := [];
    counter := start;
    while |ids| < n
      invariant |ids| <= n && counter == start - |ids|
      invariant forall i, j :: 0 <= i < j < |ids| ==> ids[i] > ids[j]
      invariant forall i :: 0 <= i < |ids| ==> counter <= ids[i] < start
    {
      var next := NextLocalId(header, Some(counter));
      ids := ids + [next.value];
      counter := next.value;
    }
  }
}

=== FILE: follow.dfy ===
/** `followUser` and `unfollowUser` (cloud.js:449-510): a set of follow
    edges (the `UserFollow` table) and two counters per user,
    `followingCount` and `followersCount`. A counter that was never set reads
    as 0, which is what LeanCloud's `increment` starts from. */
module Follow {
  import opened Api

  /** The `UserFollow` rows as (follower, followed) pairs, and the counters. */
  datatype Social = Social(
    edges: set<(string, string)>,
    following: map<string, int>,
    followers: map<string, int>)

  function Count(m: map<string, int>, u: string): int {
    if u in m then m[u] else 0
  }

  /** `increment(field, d)` on user `u`'s counter. */
  function Bump(m: map<string, int>, u: string, d: int): (r: map<string, int>)
    ensures Count(r, u) == Count(m, u) + d
    ensures forall v :: v != u ==> Count(r, v) == Count(m, v)
  {
    m[u := Count(m, u) + d]
  }

  /** Whom `u` follows, and who follows `u`. */
  function Out(edges: set<(string, string)>, u: string): set<string> {
    set e | e in edges && e.0 == u :: e.1
  }

  function In(edges: set<(string, string)>, u: string): set<string> {
    set e | e in edges && e.1 == u :: e.0
  }

  /** Every counter equals the number of edges it counts. */
  ghost predicate Consistent(s: Social) {
    forall u :: Count(s.following, u) == |Out(s.edges, u)| && Count(s.followers, u) == |In(s.edges, u)|
  }

  /** Two states a client cannot tell apart: the same edges and every
      counter reading the same (an unset counter and a 0 look alike). */
  ghost predicate SameState(s: Social, t: Social) {
    && s.edges == t.edges
    && (forall u :: Count(s.following, u) == Count(t.following, u))
    && (forall u :: Count(s.followers, u) == Count(t.followers, u))
  }

  datatype FollowNote = Followed | AlreadyFollowing | Unfollowed | NotFollowing

  datatype Step = Step(note: FollowNote, social: Social)

  /** `followUser`: 403, 401, 400 for a missing target or oneself; a repeat
      changes nothing; otherwise one edge and one step on each counter. */
  function FollowUser(header: string, me: Option<string>, target: string, s: Social): (r: Result<Step>)
    ensures |header| == 0 ==> r == Err(InvalidClient)
    ensures |header| > 0 && me.None? ==> r == Err(NotLoggedIn)
    ensures |header| > 0 && me.Some? && target == "" ==> r == Err(TargetMissing)
    ensures |header| > 0 && me.Some? && target != "" && me.value == target ==> r == Err(SelfFollow)
    ensures r.Ok? <==> |header| > 0 && me.Some? && target != "" && me.value != target
    ensures r.Ok? ==> r.value.social.edges == s.edges + {(me.value, target)}
    ensures r.Ok? && (me.value, target) in s.edges ==> r.value == Step(AlreadyFollowing, s)
    ensures r.Ok? && (me.value, target) !in s.edges ==>
      && r.value.note == Followed
      && Count(r.value.social.following, me.value) == Count(s.following, me.value) + 1
      && Count(r.value.social.followers, target) == Count(s.followers, target) + 1
    // no one else's counters move
    ensures r.Ok? ==> forall v :: v != me.value ==> Count(r.value.social.following, v) == Count(s.following, v)
    ensures r.Ok? ==> forall v :: v != target ==> Count(r.value.social.followers, v) == Count(s.followers, v)
  {
    var _ :- CheckSession(header);
    if me.None? then Err(NotLoggedIn)
    else if target == "" then Err(TargetMissing)
    else if me.value == target then Err(SelfFollow)
    else if (me.value, target) in s.edges then Ok(Step(AlreadyFollowing, s))
    else
      Ok(Step(Followed, Social(
        s.edges + {(me.value, target)},
        Bump(s.following, me.value, 1),
        Bump(s.followers, target, 1))))
  }

  /** `unfollowUser`: 403, 401, 400 for a missing target (there is no
      self check); no edge changes nothing; otherwise the edge goes and each
      counter steps down. */
  function UnfollowUser(header: string, me: Option<string>, target: string, s: Social): (r: Result<Step>)
    ensures |header| == 0 ==> r == Err(InvalidClient)
    ensures |header| > 0 && me.None? ==> r == Err(NotLoggedIn)
    ensures |header| > 0 && me.Some? && target == "" ==> r == Err(TargetMissing)
    ensures r.Ok? <==> |header| > 0 && me.Some? && target != ""
    ensures r.Ok? ==> r.value.social.edges == s.edges - {(me.value, target)}
    ensures r.Ok? && (me.value, target) !in s.edges ==> r.value == Step(NotFollowing, s)
    ensures r.Ok? && (me.value, target) in s.edges ==>
      && r.value.note == Unfollowed
      && Count(r.value.social.following, me.value) == Count(s.following, me.value) - 1
      && Count(r.value.social.followers, target) == Count(s.followers, target) - 1
    ensures r.Ok? ==> forall v :: v != me.value ==> Count(r.value.social.following, v) == Count(s.following, v)
    ensures r.Ok? ==> forall v :: v != target ==> Count(r.value.social.followers, v) == Count(s.followers, v)
  {
    var _ :- CheckSession(header);
    if me.None? then Err(NotLoggedIn)
    else if target == "" then Err(TargetMissing)
    else if (me.value, target) !in s.edges then Ok(Step(NotFollowing, s))
    else
      Ok(Step(Unfollowed, Social(
        s.edges - {(me.value, target)},
        Bump(s.following, me.value, -1),
        Bump(s.followers, target, -1))))
  }

  lemma AddEdge(edges: set<(string, string)>, a: string, b: string)
    requires (a, b) !in edges
    ensures |Out(edges + {(a, b)}, a)| == |Out(edges, a)| + 1
    ensures |In(edges + {(a, b)}, b)| == |In(edges, b)| + 1
    ensures forall u :: u != a ==> Out(edges + {(a, b)}, u) == Out(edges, u)
    ensures forall u :: u != b ==> In(edges + {(a, b)}, u) == In(edges, u)
  {
    assert Out(edges + {(a, b)}, a) == Out(edges, a) + {b};
    assert In(edges + {(a, b)}, b) == In(edges, b) + {a};
  }

  lemma RemoveEdge(edges: set<(string, string)>, a: string, b: string)
    requires (a, b) in edges
    ensures |Out(edges - {(a, b)}, a)| == |Out(edges, a)| - 1
    ensures |In(edges - {(a, b)}, b)| == |In(edges, b)| - 1
    ensures forall u :: u != a ==> Out(edges - {(a, b)}, u) == Out(edges, u)
    ensures forall u :: u != b ==> In(edges - {(a, b)}, u) == In(edges, u)
  {
    assert Out(edges - {(a, b)}, a) == Out(edges, a) - {b};
    assert In(edges - {(a, b)}, b) == In(edges, b) - {a};
  }

  /** Following keeps every counter equal to the edges it counts. */
  lemma FollowKeepsCounts(header: string, me: Option<string>, target: string, s: Social)
    requires Consistent(s)
    requires FollowUser(header, me, target, s).Ok?
    ensures Consistent(FollowUser(header, me, target, s).value.social)
  {
    if (me.value, target) !in s.edges {
      AddEdge(s.edges, me.value, target);
    }
  }

  /** Unfollowing keeps every counter equal to the edges it counts. */
  lemma UnfollowKeepsCounts(header: string, me: Option<string>, target: string, s: Social)
    requires Consistent(s)
    requires UnfollowUser(header, me, target, s).Ok?
    ensures Consistent(UnfollowUser(header, me, target, s).value.social)
  {
    if (me.value, target) in s.edges {
      RemoveEdge(s.edges, me.value, target);
    }
  }

  /** Following twice is following once. */
  lemma FollowIsIdempotent(header: string, me: Option<string>, target: string, s: Social)
    requires FollowUser(header, me, target, s).Ok?
    ensures var t := FollowUser(header, me, target, s).value.social;
            FollowUser(header, me, target, t) == Ok(Step(AlreadyFollowing, t))
  {
  }

  /** A follow undone by an unfollow leaves nothing a client can see. */
  lemma FollowThenUnfollow(header: string, me: Option<string>, target: string, s: Social)
    requires FollowUser(header, me, target, s).Ok?
    requires (me.value, target) !in s.edges
    ensures var t := FollowUser(header, me, target, s).value.social;
            var back := UnfollowUser(header, me, target, t);
            back.Ok? && back.value.note == Unfollowed && SameState(back.value.social, s)
  {
  }
}

=== FILE: handshake.dfy ===
/** The `handshake` cloud function (cloud.js:20-64): a client proves it holds
    the root key by signing "version|timestamp", and an active version gets
    a session token back. The clock, the HMAC and the random token are
    inputs: `serverNow` is the server's time in whole seconds, `hmac(key,
    data)` is the hex HMAC-SHA256 digest, `freshToken` the hex encoding of 32
    random bytes. */
module Handshake {
  import opened Api
  import opened JsStrings

  /** Seconds a timestamp may differ from the server clock. */
  const FreshnessWindow := 300

  const UnsupportedMessage := "您的应用版本不受支持，请更新。"

  datatype HandshakeParams = HandshakeParams(version: string, timestamp: string, signature: string)

  /** A row of the `VersionConfig` table. */
  datatype VersionConfig = VersionConfig(status: string, updateMessage: string, updateUrl: string)

  datatype HandshakeReply = HandshakeReply(
    status: string,
    updateMessage: string,
    updateUrl: string,
    sessionAuthToken: Option<string>)

  function Abs(x: int): nat {
    if x < 0 then -x else x
  }

  predicate ParamsPresent(p: HandshakeParams) {
    p.version != "" && p.timestamp != "" && p.signature != ""
  }

  /** `Math.abs(serverNow - ts) > 300`; a timestamp `parseInt` cannot read
      is NaN, and every comparison with NaN is false, so it is never stale. */
  predicate Stale(serverNow: int, ts: Option<int>) {
    ts.Some? && Abs(serverNow - ts.value) > FreshnessWindow
  }

  /** The signed text: the raw timestamp string, not the parsed number. */
  function Challenge(version: string, timestamp: string): string {
    version + "|" + timestamp
  }

  /** The version policy: an unknown version is blocked with the generic
      update message; a known one reports its stored status, and only the
      status 'active' mints a session token. */
  function VersionPolicy(configs: map<string, VersionConfig>, version: string, freshToken: string): (r: HandshakeReply)
    ensures r.sessionAuthToken.Some? <==> r.status == "active"
    ensures r.sessionAuthToken.Some? ==> r.sessionAuthToken.value == freshToken
    ensures version !in configs ==>
      r == HandshakeReply("blocked", UnsupportedMessage, "", None)
    ensures version in configs ==>
      && r.status == configs[version].status
      && r.updateMessage == configs[version].updateMessage
      && r.updateUrl == configs[version].updateUrl
  {
    var (status, message, url) :=
      if version in configs
      then (configs[version].status, configs[version].updateMessage, configs[version].updateUrl)
      else ("blocked", UnsupportedMessage, "");
    HandshakeReply(status, message, url, if status == "active" then Some(freshToken) else None)
  }

  /** The handshake's checks, in the source's order: parameters (400),
      freshness (408), root key (500), signature (403), then the policy.
      `clientTime` is the timestamp as `parseInt` reads it. */
  function HandshakeWith(
    p: HandshakeParams,
    clientTime: Option<int>,
    serverNow: int,
    rootKey: string,
    hmac: (string, string) -> string,
    configs: map<string, VersionConfig>,
    freshToken: string): (r: Result<HandshakeReply>)
    ensures !ParamsPresent(p) <==> r == Err(HandshakeParamsMissing)
    ensures ParamsPresent(p) && Stale(serverNow, clientTime) <==> r == Err(RequestExpired)
    ensures r == Err(RootKeyUnset) <==>
      ParamsPresent(p) && !Stale(serverNow, clientTime) && rootKey == ""
    ensures r == Err(SignatureInvalid) <==>
      && ParamsPresent(p) && !Stale(serverNow, clientTime) && rootKey != ""
      && hmac(rootKey, Challenge(p.version, p.timestamp)) != p.signature
    ensures r.Err? ==> Code(r.error) in {400, 408, 500, 403}
    ensures r.Ok? <==>
      && ParamsPresent(p) && !Stale(serverNow, clientTime) && rootKey != ""
      && hmac(rootKey, Challenge(p.version, p.timestamp)) == p.signature
    ensures r.Ok? ==> r.value == VersionPolicy(configs, p.version, freshToken)
  {
    if !ParamsPresent(p) then Err(HandshakeParamsMissing)
    else if Stale(serverNow, clientTime) then Err(RequestExpired)
    else if rootKey == "" then Err(RootKeyUnset)
    else if hmac(rootKey, Challenge(p.version, p.timestamp)) != p.signature then Err(SignatureInvalid)
    else Ok(VersionPolicy(configs, p.version, freshToken))
  }

  /** `handshake`: the checks above on the timestamp parsed with
      `parseInt(timestamp, 10)`. */
  function Handshake(
    p: HandshakeParams,
    serverNow: int,
    rootKey: string,
    hmac: (string, string) -> string,
    configs: map<string, VersionConfig>,
    freshToken: string): (r: Result<HandshakeReply>)
    ensures !ParamsPresent(p) <==> r == Err(HandshakeParamsMissing)
    ensures ParamsPresent(p) && Stale(serverNow, ParseInt(p.timestamp)) <==> r == Err(RequestExpired)
    ensures r.Err? ==> Code(r.error) in {400, 408, 500, 403}
    ensures r.Ok? <==>
      && ParamsPresent(p) && !Stale(serverNow, ParseInt(p.timestamp)) && rootKey != ""
      && hmac(rootKey, Challenge(p.version, p.timestamp)) == p.signature
    ensures r.Ok? ==> r.value == VersionPolicy(configs, p.version, freshToken)
  {
    HandshakeWith(p, ParseInt(p.timestamp), serverNow, rootKey, hmac, configs, freshToken)
  }

  /** A replayed or badly clocked request is refused with 408 whatever its
      signature, and whether or not the root key is configured. */
  lemma StaleIsRefused(
    version: string, t: int, signature: string, serverNow: int, rootKey: string,
    hmac: (string, string) -> string, configs: map<string, VersionConfig>, freshToken: string)
    requires version != "" && signature != ""
    requires Abs(serverNow - t) > FreshnessWindow
    ensures Handshake(HandshakeParams(version, Render(t), signature), serverNow, rootKey, hmac, configs, freshToken)
         == Err(RequestExpired)
  {
    ParseRenderAlone(t);
    RefusedWhenParsedStale(HandshakeParams(version, Render(t), signature), t, serverNow, rootKey, hmac, configs, freshToken);
  }

  /** The 408 once the timestamp's reading is known. */
  lemma RefusedWhenParsedStale(
    p: HandshakeParams, t: int, serverNow: int, rootKey: string,
    hmac: (string, string) -> string, configs: map<string, VersionConfig>, freshToken: string)
    requires ParamsPresent(p) && ParseInt(p.timestamp) == Some(t)
    requires Abs(serverNow - t) > FreshnessWindow
    ensures Handshake(p, serverNow, rootKey, hmac, configs, freshToken) == Err(RequestExpired)
  {
    assert Stale(serverNow, ParseInt(p.timestamp));
  }

  /** A client that holds the root key, sends the current time as its
      decimal string and signs "version|timestamp" gets past every check; it
      receives a token exactly when its version is configured as active. */
  lemma HonestClientAdmitted(
    version: string, t: int, serverNow: int, rootKey: string,
    hmac: (string, string) -> string, configs: map<string, VersionConfig>, freshToken: string)
    requires version != "" && rootKey != ""
    requires hmac(rootKey, Challenge(version, Render(t))) != ""
    requires Abs(serverNow - t) <= FreshnessWindow
    ensures var r := Handshake(
              HandshakeParams(version, Render(t), hmac(rootKey, Challenge(version, Render(t)))),
              serverNow, rootKey, hmac, configs, freshToken);
            && r.Ok?
            && (r.value.sessionAuthToken == Some(freshToken) <==>
                  version in configs && configs[version].status == "active")
  {
    var ts := Render(t);
    ParseRenderAlone(t);
    AdmittedWhenParsedFresh(
      HandshakeParams(version, ts, hmac(rootKey, Challenge(version, ts))), t, serverNow, rootKey, hmac, configs, freshToken);
  }

  /** Admission once the timestamp's reading is known. */
  lemma AdmittedWhenParsedFresh(
    p: HandshakeParams, t: int, serverNow: int, rootKey: string,
    hmac: (string, string) -> string, configs: map<string, VersionConfig>, freshToken: string)
    requires ParamsPresent(p) && ParseInt(p.timestamp) == Some(t)
    requires Abs(serverNow - t) <= FreshnessWindow
    requires rootKey != "" && hmac(rootKey, Challenge(p.version, p.timestamp)) == p.signature
    ensures Handshake(p, serverNow, rootKey, hmac, configs, freshToken) == Ok(VersionPolicy(configs, p.version, freshToken))
  {
    assert !Stale(serverNow, ParseInt(p.timestamp));
  }

  /** A timestamp `parseInt` cannot read is NaN, and `Math.abs(NaN) > 300`
      is false: such a request is never refused as stale, whatever the
      server clock says, and a valid signature over it is admitted. */
  lemma UnreadableTimestampIsNeverStale(
    p: HandshakeParams, serverNow: int, rootKey: string,
    hmac: (string, string) -> string, configs: map<string, VersionConfig>, freshToken: string)
    requires ParamsPresent(p) && ParseInt(p.timestamp).None?
    requires rootKey != "" && hmac(rootKey, Challenge(p.version, p.timestamp)) == p.signature
    ensures Handshake(p, serverNow, rootKey, hmac, configs, freshToken)
         == Ok(VersionPolicy(configs, p.version, freshToken))
  {
  }
}

=== FILE: jsstrings.dfy ===
/** The JavaScript string built-ins the cloud functions rely on:
    `trim`, `startsWith`, `replace` with a string pattern, `parseInt(s, 10)`,
    and the decimal rendering of an integer. Strings are sequences of
    characters; a character here stands for one UTF-16 code unit. */
module JsStrings {
  import opened Api

  /** WhiteSpace and LineTerminator characters of ECMAScript: what `trim`
      strips and what `parseInt` skips before the number. */
  predicate IsJsSpace(c: char) {
    || c == '\t' || c == '\n' || c == '\r' || c == ' '
    || c == '\U{000B}' || c == '\U{000C}' || c == '\U{00A0}' || c == '\U{1680}'
    || ('\U{2000}' <= c <= '\U{200A}')
    || c == '\U{2028}' || c == '\U{2029}' || c == '\U{202F}' || c == '\U{205F}'
    || c == '\U{3000}' || c == '\U{FEFF}'
  }

  predicate IsDigit(c: char) {
    '0' <= c <= '9'
  }

  function DigitValue(c: char): (d: nat)
    requires IsDigit(c)
    ensures d < 10
  {
    (c as int) - ('0' as int)
  }

  function DigitChar(d: nat): (c: char)
    requires d < 10
    ensures IsDigit(c) && DigitValue(c) == d
  {
    (('0' as int) + d) as char
  }

  // ---------------------------------------------------------------- trim

  /** Drops the leading white space. */
  function TrimStart(s: string): (r: string)
    ensures |r| <= |s| && r == s[|s| - |r|..]
  {
    if |s| > 0 && IsJsSpace(s[0]) then TrimStart(s[1..]) else s
  }

  /** What `TrimStart` drops is white space, and what it keeps does not
      start with white space. */
  lemma {:induction false} TrimStartFacts(s: string)
    ensures var r := TrimStart(s);
            && (forall i :: 0 <= i < |s| - |r| ==> IsJsSpace(s[i]))
            && (|r| > 0 ==> !IsJsSpace(r[0]))
  {
    if |s| > 0 && IsJsSpace(s[0]) {
      var t := s[1..];
      TrimStartFacts(t);
      var r := TrimStart(t);
      assert TrimStart(s) == r;
      SpaceBeforeSpaces(s, |s| - |r|);
    }
  }

  /** A white space character in front of a run of white space. */
  lemma SpaceBeforeSpaces(s: string, k: nat)
    requires 0 < k <= |s| && IsJsSpace(s[0])
    requires forall i :: 0 <= i < k - 1 ==> IsJsSpace(s[1..][i])
    ensures forall i :: 0 <= i < k ==> IsJsSpace(s[i])
  {
    forall i | 0 < i < k
      ensures IsJsSpace(s[i])
    {
      assert s[i] == s[1..][i - 1];
    }
  }

  /** Drops the trailing white space. */
  function TrimEnd(s: string): (r: string)
    ensures |r| <= |s| && r == s[..|r|]
  {
    if |s| > 0 && IsJsSpace(s[|s| - 1]) then TrimEnd(s[..|s| - 1]) else s
  }

  /** What `TrimEnd` drops is white space, and what it keeps does not end
      with white space. */
  lemma {:induction false} TrimEndFacts(s: string)
    ensures var r := TrimEnd(s);
            && (forall i :: |r| <= i < |s| ==> IsJsSpace(s[i]))
            && (|r| > 0 ==> !IsJsSpace(r[|r| - 1]))
  {
    if |s| > 0 && IsJsSpace(s[|s| - 1]) {
      TrimEndFacts(s[..|s| - 1]);
    }
  }

  /** `String.prototype.trim`: the longest infix of `s` that neither starts
      nor ends with white space, everything cut off being white space. */
  function Trim(s: string): (r: string)
    ensures var k := |s| - |TrimStart(s)|;
            && k + |r| <= |s| && (forall i :: 0 <= i < |r| ==> r[i] == s[k + i])
            && (forall i :: 0 <= i < k ==> IsJsSpace(s[i]))
            && (forall i :: k + |r| <= i < |s| ==> IsJsSpace(s[i]))
    ensures |r| > 0 ==> !IsJsSpace(r[0]) && !IsJsSpace(r[|r| - 1])
  {
    TrimSpec(s);
    TrimEnd(TrimStart(s))
  }

  lemma TrimSpec(s: string)
    ensures var t := TrimStart(s);
            var r := TrimEnd(t);
            var k := |s| - |t|;
            && k + |r| <= |s| && (forall i :: 0 <= i < |r| ==> r[i] == s[k + i])
            && (forall i :: 0 <= i < k ==> IsJsSpace(s[i]))
            && (forall i :: k + |r| <= i < |s| ==> IsJsSpace(s[i]))
            && (|r| > 0 ==> !IsJsSpace(r[0]) && !IsJsSpace(r[|r| - 1]))
  {
    TrimKeepsInfix(s);
    TrimCutsSpace(s);
    TrimEndsAreNotSpace(s);
  }

  /** The trimmed text is the infix of `s` after the leading white space. */
  lemma TrimKeepsInfix(s: string)
    ensures var t := TrimStart(s);
            var r := TrimEnd(t);
            var k := |s| - |t|;
            k + |r| <= |s| && forall i :: 0 <= i < |r| ==> r[i] == s[k + i]
  {
    var t := TrimStart(s);
    var r := TrimEnd(t);
    var k := |s| - |t|;
    assert t == s[k..];
    assert r == t[..|r|];
    forall i | 0 <= i < |r|
      ensures r[i] == s[k + i]
    {
      assert r[i] == t[..|r|][i] == t[i];
      assert t[i] == s[k..][i];
    }
  }

  /** Everything cut from either end is white space. */
  lemma TrimCutsSpace(s: string)
    ensures var t := TrimStart(s);
            var r := TrimEnd(t);
            var k := |s| - |t|;
            && (forall i :: 0 <= i < k ==> IsJsSpace(s[i]))
            && (forall i :: k + |r| <= i < |s| ==> IsJsSpace(s[i]))
  {
    var t := TrimStart(s);
    TrimStartFacts(s);
    TrimEndFacts(t);
    TrimInfix(s, t, TrimEnd(t));
  }

  /** The trimmed text neither starts nor ends with white space. */
  lemma TrimEndsAreNotSpace(s: string)
    ensures var r := TrimEnd(TrimStart(s));
            |r| > 0 ==> !IsJsSpace(r[0]) && !IsJsSpace(r[|r| - 1])
  {
    var t := TrimStart(s);
    TrimStartHead(s);
    assert |t| > 0 ==> !IsJsSpace(t[0]);
    TrimEndKeepsHead(t);
  }

  /** Trimming the end of a text that does not start with white space
      leaves a text that neither starts nor ends with it. */
  lemma TrimEndKeepsHead(t: string)
    requires |t| > 0 ==> !IsJsSpace(t[0])
    ensures var r := TrimEnd(t);
            |r| > 0 ==> !IsJsSpace(r[0]) && !IsJsSpace(r[|r| - 1])
  {
    var r := TrimEnd(t);
    TrimEndLast(t);
    if |r| > 0 {
      assert r[0] == t[0];
    }
  }

  lemma {:induction false} TrimStartHead(s: string)
    ensures |TrimStart(s)| > 0 ==> !IsJsSpace(TrimStart(s)[0])
  {
    if |s| > 0 && IsJsSpace(s[0]) {
      TrimStartHead(s[1..]);
    }
  }

  lemma {:induction false} TrimEndLast(s: string)
    ensures |TrimEnd(s)| > 0 ==> !IsJsSpace(TrimEnd(s)[|TrimEnd(s)| - 1])
  {
    if |s| > 0 && IsJsSpace(s[|s| - 1]) {
      TrimEndLast(s[..|s| - 1]);
    }
  }

  /** The trailing white space of the suffix `t` of `s` is trailing white
      space of `s`. */
  lemma TrimInfix(s: string, t: string, r: string)
    requires |t| <= |s| && t == s[|s| - |t|..]
    requires |r| <= |t| && r == t[..|r|]
    requires forall i :: |r| <= i < |t| ==> IsJsSpace(t[i])
    ensures var k := |s| - |t|; r == s[k..k + |r|]
    ensures forall i :: |s| - |t| + |r| <= i < |s| ==> IsJsSpace(s[i])
    ensures |r| > 0 ==> r[0] == t[0]
  {
    var k := |s| - |t|;
    forall i | k + |r| <= i < |s|
      ensures IsJsSpace(s[i])
    {
      assert s[i] == t[i - k];
    }
  }

  // ------------------------------------------------- startsWith / replace

  predicate StartsWith(s: string, p: string) {
    |p| <= |s| && s[..|p|] == p
  }

  /** `p` occurs in `s` at position `k`. */
  predicate MatchAt(s: string, p: string, k: nat) {
    k + |p| <= |s| && s[k..k + |p|] == p
  }

  /** The first position at or after `from` where `p` occurs in `s`. */
  function IndexFrom(s: string, p: string, from: nat): (r: Option<nat>)
    requires from <= |s|
    ensures r.Some? ==> from <= r.value && MatchAt(s, p, r.value)
    ensures r.Some? ==> forall k :: from <= k < r.value ==> !MatchAt(s, p, k)
    ensures r.None? ==> forall k :: from <= k <= |s| ==> !MatchAt(s, p, k)
    decreases |s| - from
  {
    if MatchAt(s, p, from) then Some(from)
    else if from == |s| then None
    else IndexFrom(s, p, from + 1)
  }

  /** `s.replace(p, rep)` with a string pattern: only the FIRST occurrence
      of `p`, wherever it is, is replaced; without one `s` is unchanged. */
  function ReplaceFirst(s: string, p: string, rep: string): (r: string)
    ensures StartsWith(s, p) ==> r == rep + s[|p|..]
    ensures (forall k :: 0 <= k <= |s| ==> !MatchAt(s, p, k)) ==> r == s
  {
    match IndexFrom(s, p, 0)
    case None => s
    case Some(i) => s[..i] + rep + s[i + |p|..]
  }

  /** Replacing a prefix that is present strips exactly that prefix. */
  lemma ReplacePrefix(s: string, p: string)
    requires StartsWith(s, p)
    ensures ReplaceFirst(s, p, "") == s[|p|..]
  {
    assert MatchAt(s, p, 0);
  }

  /** A pattern that does not occur leaves the string as it was. */
  lemma ReplaceAbsent(s: string, p: string)
    requires forall k :: 0 <= k <= |s| ==> !MatchAt(s, p, k)
    ensures ReplaceFirst(s, p, "") == s
  {
  }

  /** Only the first occurrence is replaced: with `p` first found at `i`,
      the text before `i` and after that occurrence is kept as it was. */
  lemma ReplaceFirstOccurrence(s: string, p: string, rep: string, i: nat)
    requires MatchAt(s, p, i)
    requires forall k :: 0 <= k < i ==> !MatchAt(s, p, k)
    ensures ReplaceFirst(s, p, rep) == s[..i] + rep + s[i + |p|..]
  {
    assert IndexFrom(s, p, 0) == Some(i);
  }

  // ------------------------------------------------------------ parseInt

  /** Length of the run of decimal digits at the start of `t`. */
  function DigitRun(t: string): (n: nat)
    ensures n <= |t|
  {
    if |t| > 0 && IsDigit(t[0]) then 1 + DigitRun(t[1..]) else 0
  }

  /** The run is all digits, and it is the longest such run. */
  lemma {:induction false} DigitRunFacts(t: string)
    ensures forall i :: 0 <= i < DigitRun(t) ==> IsDigit(t[i])
    ensures DigitRun(t) < |t| ==> !IsDigit(t[DigitRun(t)])
  {
    if |t| > 0 && IsDigit(t[0]) {
      DigitRunFacts(t[1..]);
      forall i | 0 <= i < DigitRun(t)
        ensures IsDigit(t[i])
      {
        if i > 0 {
          assert t[i] == t[1..][i - 1];
        }
      }
    }
  }

  predicate AllDigits(ds: string) {
    forall i :: 0 <= i < |ds| ==> IsDigit(ds[i])
  }

  /** The value of a string of decimal digits, most significant first. */
  function DigitsValue(ds: string): nat
    requires AllDigits(ds)
  {
    if |ds| == 0 then 0
    else DigitsValue(ds[..|ds| - 1]) * 10 + DigitValue(ds[|ds| - 1])
  }

  /** `parseInt(s, 10)` on integers: leading white space is skipped, one
      optional sign is read, then the longest run of digits; anything after
      it is ignored. Without a digit the result is `NaN`, here `None`. */
  function ParseInt(s: string): (r: Option<int>)
    ensures var t := TrimStart(s);
            r.Some? <==>
              || (|t| > 0 && IsDigit(t[0]))
              || (|t| > 1 && (t[0] == '-' || t[0] == '+') && IsDigit(t[1]))
    ensures var t := TrimStart(s);
            r.Some? ==> (r.value < 0 ==> t[0] == '-') && (|t| > 0 && t[0] != '-' ==> r.value >= 0)
  {
    ReadSignedMeaning(TrimStart(s));
    ReadSigned(TrimStart(s))
  }

  /** The longest run of digits at the start of `u`, as a number. */
  function ReadDigits(u: string): Option<nat> {
    var n := DigitRun(u);
    if n == 0 then None
    else
      DigitRunFacts(u);
      Some(DigitsValue(u[..n]))
  }

  /** The part of `parseInt` after the white space: one optional sign, then
      the digits. */
  function ReadSigned(t: string): Option<int> {
    if |t| > 0 && t[0] == '-' then
      var d := ReadDigits(t[1..]);
      if d.Some? then Some(-(d.value as int)) else None
    else if |t| > 0 && t[0] == '+' then
      var d := ReadDigits(t[1..]);
      if d.Some? then Some(d.value) else None
    else
      var d := ReadDigits(t);
      if d.Some? then Some(d.value) else None
  }

  /** When the sign-and-digits reader yields a number, and its sign. */
  lemma ReadSignedMeaning(t: string)
    ensures ReadSigned(t).Some? <==>
              || (|t| > 0 && IsDigit(t[0]))
              || (|t| > 1 && (t[0] == '-' || t[0] == '+') && IsDigit(t[1]))
    ensures ReadSigned(t).Some? ==>
              && (ReadSigned(t).value < 0 ==> t[0] == '-')
              && (|t| > 0 && t[0] != '-' ==> ReadSigned(t).value >= 0)
  {
    var u := if |t| > 0 && (t[0] == '-' || t[0] == '+') then t[1..] else t;
    assert DigitRun(u) > 0 <==> |u| > 0 && IsDigit(u[0]);
    assert |u| > 0 ==> u[0] == (if |t| > 0 && (t[0] == '-' || t[0] == '+') then t[1] else t[0]);
  }

  /** The decimal digits of a natural number, without leading zeros. */
  function Decimal(n: nat): (ds: string)
    ensures |ds| > 0 && AllDigits(ds)
  {
    if n < 10 then [DigitChar(n)] else Decimal(n / 10) + [DigitChar(n % 10)]
  }

  /** `String(i)` for an integer `i`. */
  function Render(i: int): (s: string)
    ensures |s| > 0
  {
    if i < 0 then "-" + Decimal(-i) else Decimal(i)
  }

  lemma {:induction false} DecimalValue(n: nat)
    ensures DigitsValue(Decimal(n)) == n
  {
    if n >= 10 {
      var ds := Decimal(n);
      assert ds[..|ds| - 1] == Decimal(n / 10);
      DecimalValue(n / 10);
    }
  }

  /** A digit run followed by something that is not a digit. */
  lemma {:induction false} DigitRunOfDigits(ds: string, rest: string)
    requires AllDigits(ds)
    requires |rest| == 0 || !IsDigit(rest[0])
    ensures DigitRun(ds + rest) == |ds|
    decreases |ds|
  {
    var t := ds + rest;
    if |ds| == 0 {
      assert t == rest;
    } else {
      assert t[0] == ds[0];
      assert t[1..] == ds[1..] + rest;
      DigitRunOfDigits(ds[1..], rest);
    }
  }

  /** `parseInt` reads back what `String` wrote, and ignores whatever
      non-digit text follows it. */
  lemma {:induction false} ParseRender(i: int, rest: string)
    requires |rest| == 0 || !IsDigit(rest[0])
    ensures ParseInt(Render(i) + rest) == Some(i)
  {
    var sign := if i < 0 then "-" else "";
    var n: nat := if i < 0 then -i else i;
    assert Render(i) == sign + Decimal(n);
    WithoutSpaceOrZeros(sign, Decimal(n), rest);
    ParseIntReads("", sign, "", n, rest);
  }

  predicate AllSpace(w: string) {
    forall i :: 0 <= i < |w| ==> IsJsSpace(w[i])
  }

  predicate AllZeros(z: string) {
    forall i :: 0 <= i < |z| ==> z[i] == '0'
  }

  /** Leading white space is skipped up to the first other character. */
  lemma {:induction false} TrimStartSkipsSpace(w: string, x: string)
    requires AllSpace(w)
    requires |x| > 0 && !IsJsSpace(x[0])
    ensures TrimStart(w + x) == x
    decreases |w|
  {
    if |w| == 0 {
      assert w + x == x;
    } else {
      assert (w + x)[0] == w[0];
      assert (w + x)[1..] == w[1..] + x;
      TrimStartSkipsSpace(w[1..], x);
    }
  }

  lemma {:induction false} ZerosValue(z: string)
    requires AllZeros(z)
    ensures AllDigits(z) && DigitsValue(z) == 0
    decreases |z|
  {
    if |z| > 0 {
      var p := z[..|z| - 1];
      assert forall i :: 0 <= i < |p| ==> p[i] == z[i];
      ZerosValue(p);
    }
  }

  /** Leading zeros do not change the value of a digit string. */
  lemma {:induction false} LeadingZerosValue(z: string, ds: string)
    requires AllZeros(z) && AllDigits(ds)
    ensures AllDigits(z + ds) && DigitsValue(z + ds) == DigitsValue(ds)
    decreases |ds|
  {
    var t := z + ds;
    forall i | 0 <= i < |t|
      ensures IsDigit(t[i])
    {
      if i >= |z| {
        assert t[i] == ds[i - |z|];
      }
    }
    if |ds| == 0 {
      assert t == z;
      ZerosValue(z);
    } else {
      var p := ds[..|ds| - 1];
      assert t[..|t| - 1] == z + p;
      assert t[|t| - 1] == ds[|ds| - 1];
      LeadingZerosValue(z, p);
    }
  }

  /** Leading zeros, the digits of `n` and then a non-digit: the digit
      reader yields `n`. */
  lemma ReadDigitsOfDecimal(z: string, n: nat, rest: string)
    requires AllZeros(z)
    requires |rest| == 0 || !IsDigit(rest[0])
    ensures var u := z + Decimal(n) + rest; |u| > 0 && IsDigit(u[0]) && ReadDigits(u) == Some(n)
  {
    var ds := z + Decimal(n);
    DecimalValue(n);
    LeadingZerosValue(z, Decimal(n));
    ConcatHead(ds, rest);
    DigitRunOfDigits(ds, rest);
  }

  /** The front of a concatenation is its first part. */
  lemma ConcatHead(a: string, b: string)
    ensures (a + b)[..|a|] == a
    ensures |a| > 0 ==> (a + b)[0] == a[0]
  {
  }

  /** Without a sign, the digits are read as they are. */
  lemma ReadUnsigned(u: string)
    requires |u| > 0 && IsDigit(u[0])
    ensures var d := ReadDigits(u);
            ReadSigned(u) == if d.Some? then Some(d.value) else None
  {
  }

  /** A minus sign negates whatever digits follow it. */
  lemma ReadAfterMinus(u: string)
    ensures var d := ReadDigits(u);
            ReadSigned("-" + u) == if d.Some? then Some(-(d.value as int)) else None
  {
    var t := "-" + u;
    assert t[0] == '-' && t[1..] == u;
  }

  /** A plus sign reads whatever digits follow it unchanged. */
  lemma ReadAfterPlus(u: string)
    ensures var d := ReadDigits(u);
            ReadSigned("+" + u) == if d.Some? then Some(d.value) else None
  {
    var t := "+" + u;
    assert t[0] == '+' && t[1..] == u;
  }

  /** `parseInt(s, 10)` on any text a client may send for a number: white
      space, an optional sign, leading zeros, the digits of `n`, and then
      text that does not start with a digit. */
  lemma {:induction false} ParseIntReads(w: string, sign: string, z: string, n: nat, rest: string)
    requires AllSpace(w) && (sign == "" || sign == "+" || sign == "-") && AllZeros(z)
    requires |rest| == 0 || !IsDigit(rest[0])
    ensures ParseInt(w + sign + z + Decimal(n) + rest) == Some(if sign == "-" then -(n as int) else n)
  {
    var u := z + Decimal(n) + rest;
    ReadDigitsOfDecimal(z, n, rest);
    ReadSignThenDigits(sign, u, n);
    Regroup(w, sign, z, Decimal(n), rest);
    ParseIntAfterSpace(w, sign + u);
  }

  /** After white space: an optional sign followed by digits worth `n`. */
  lemma ReadSignThenDigits(sign: string, u: string, n: nat)
    requires sign == "" || sign == "+" || sign == "-"
    requires |u| > 0 && IsDigit(u[0]) && ReadDigits(u) == Some(n)
    ensures var x := sign + u;
            && ReadSigned(x) == Some(if sign == "-" then -(n as int) else n)
            && !IsJsSpace(x[0])
  {
    ConcatHead(sign, u);
    if sign == "" {
      assert sign + u == u;
      ReadUnsigned(u);
    } else if sign == "-" {
      ReadAfterMinus(u);
    } else {
      ReadAfterPlus(u);
    }
  }

  lemma WithoutSpaceOrZeros(sign: string, d: string, rest: string)
    ensures "" + sign + "" + d + rest == sign + d + rest
  {
  }

  lemma Regroup(w: string, sign: string, z: string, d: string, rest: string)
    ensures w + sign + z + d + rest == w + (sign + (z + d + rest))
  {
  }

  /** `parseInt` skips the white space and reads what follows. */
  lemma ParseIntAfterSpace(w: string, x: string)
    requires AllSpace(w)
    requires |x| > 0 && !IsJsSpace(x[0])
    ensures ParseInt(w + x) == ReadSigned(x)
  {
    TrimStartSkipsSpace(w, x);
  }

  /** `parseInt(String(i), 10) == i`. */
  lemma ParseRenderAlone(i: int)
    ensures ParseInt(Render(i)) == Some(i)
  {
    ParseRender(i, "");
    assert Render(i) + "" == Render(i);
  }
}

=== FILE: likes.dfy ===
/** `toggleLikeCharacter` (cloud.js:563-608): the user's list of liked
    character ids is toggled, and the character's `likeCount` moves by the
    same step when the character exists. Ids are integers (a non-numeric
    `characterId` is refused before anything is read). */
module Likes {
  import opened Api

  /** `indexOf`: the first position of `x` in `xs`. */
  function IndexOf(xs: seq<int>, x: int): (r: Option<nat>)
    ensures r.Some? ==> r.value < |xs| && xs[r.value] == x && x !in xs[..r.value]
    ensures r.None? <==> x !in xs
  {
    if |xs| == 0 then None
    else if xs[0] == x then Some(0)
    else
      var rest := IndexOf(xs[1..], x);
      assert forall y :: y in xs <==> y == xs[0] || y in xs[1..];
      match rest
      case None => None
      case Some(i) =>
        assert xs[..i + 1] == [xs[0]] + xs[1..][..i];
        Some(i + 1)
  }

  /** The toggle: the first occurrence of `id` is spliced out with a step of
      -1, or `id` is appended with a step of +1. */
  function Toggle(liked: seq<int>, id: int): (r: (seq<int>, int))
    ensures id !in liked ==> r == (liked + [id], 1)
    ensures id in liked ==>
      && r.1 == -1 && |r.0| == |liked| - 1
      && exists i :: 0 <= i < |liked| && liked[i] == id && id !in liked[..i]
                     && r.0 == liked[..i] + liked[i + 1..]
  {
    match IndexOf(liked, id)
    case None => (liked + [id], 1)
    case Some(i) => (liked[..i] + liked[i + 1..], -1)
  }

  /** The step is exactly the change in how often the list holds `id`, and
      nothing else in the list changes: a like count moved by the step
      stays equal to the number of lists holding the id. */
  lemma {:induction false} StepMatchesList(liked: seq<int>, id: int)
    ensures multiset(Toggle(liked, id).0)[id] == multiset(liked)[id] + Toggle(liked, id).1
    ensures forall y :: y != id ==> multiset(Toggle(liked, id).0)[y] == multiset(liked)[y]
  {
    match IndexOf(liked, id)
    case None =>
    case Some(i) =>
      assert liked == liked[..i] + [liked[i]] + liked[i + 1..];
      assert multiset(liked) == multiset(liked[..i]) + multiset{id} + multiset(liked[i + 1..]);
  }

  predicate NoDuplicates(xs: seq<int>) {
    forall i, j :: 0 <= i < j < |xs| ==> xs[i] != xs[j]
  }

  /** On a list without repeats (every list the toggle builds from an empty
      one), toggling flips whether `id` is liked and keeps the list free of
      repeats. */
  lemma ToggleFlips(liked: seq<int>, id: int)
    requires NoDuplicates(liked)
    ensures (id in Toggle(liked, id).0) <==> (id !in liked)
    ensures NoDuplicates(Toggle(liked, id).0)
  {
    var r := Toggle(liked, id).0;
    match IndexOf(liked, id)
    case None =>
      assert r == liked + [id];
    case Some(i) =>
      assert r == liked[..i] + liked[i + 1..];
      forall a | 0 <= a < |r|
        ensures r[a] == liked[if a < i then a else a + 1]
      {
      }
      forall a, b | 0 <= a < b < |r|
        ensures r[a] != r[b]
      {
        assert r[a] == liked[if a < i then a else a + 1];
        assert r[b] == liked[if b < i then b else b + 1];
      }
      forall a | 0 <= a < |r|
        ensures r[a] != id
      {
        assert r[a] == liked[if a < i then a else a + 1];
      }
  }

  /** Toggling an id that is not liked twice gives the list back. */
  lemma ToggleTwiceRestores(liked: seq<int>, id: int)
    requires id !in liked
    ensures Toggle(Toggle(liked, id).0, id) == (liked, -1)
  {
    var l := liked + [id];
    assert l[|liked|] == id;
    assert IndexOf(l, id) == Some(|liked|) by {
      assert id !in l[..|liked|] by { assert l[..|liked|] == liked; }
    }
    assert l[..|liked|] + l[|liked| + 1..] == liked;
  }

  /** The reply: the new list, and the character's new like count when the
      character exists (`None` when it was not found). */
  datatype LikeReply = LikeReply(liked: seq<int>, likeCount: Option<int>)

  /** `likedIds` is the user's list (absent: empty), `characterId` is None
      when the parameter is not a number, `likeCount` None when no
      character has that id. */
  function ToggleLikeCharacter(
    header: string, likedIds: Option<seq<int>>, characterId: Option<int>, likeCount: Option<int>)
    : (r: Result<LikeReply>)
    ensures |header| == 0 ==> r == Err(InvalidClient)
    ensures |header| > 0 && likedIds.None? ==> r == Err(NotLoggedIn)
    ensures |header| > 0 && likedIds.Some? && characterId.None? ==> r == Err(CharacterIdNotNumber)
    ensures r.Ok? <==> |header| > 0 && likedIds.Some? && characterId.Some?
    ensures r.Ok? ==>
      (NoDuplicates(likedIds.value) ==>
            (characterId.value in r.value.liked <==> characterId.value !in likedIds.value))
    ensures r.Ok? ==> r.value.liked == Toggle(likedIds.value, characterId.value).0
    ensures r.Ok? ==> forall y :: y != characterId.value ==>
      multiset(r.value.liked)[y] == multiset(likedIds.value)[y]
    ensures r.Ok? ==> (likeCount.None? <==> r.value.likeCount.None?)
    ensures r.Ok? && likeCount.Some? ==>
      r.value.likeCount.value - likeCount.value ==
        (multiset(r.value.liked)[characterId.value] as int) - multiset(likedIds.value)[characterId.value]
  {
    var _ :- CheckSession(header);
    if likedIds.None? then Err(NotLoggedIn)
    else if characterId.None? then Err(CharacterIdNotNumber)
    else
      var (list, step) := Toggle(likedIds.value, characterId.value);
      StepMatchesList(likedIds.value, characterId.value);
      assert NoDuplicates(likedIds.value) ==> (characterId.value in list <==> characterId.value !in likedIds.value) by {
        if NoDuplicates(likedIds.value) { ToggleFlips(likedIds.value, characterId.value); }
      }
      Ok(LikeReply(list, if likeCount.Some? then Some(likeCount.value + step) else None))
  }
}

=== FILE: permission.dfy ===
/** `getApiPermission` (cloud.js:134-159): the gate in front of both proxy
    functions. `admin` is the answer of `isAdmin` (cloud.js:66-73), the
    role-membership query result feeds `getUserRoles`, and `table` is the
    whole `RolePermission` table, of which the rows naming one of the
    user's roles are used. */
module Permission {
  import opened Api
  import opened Roles
  import opened Quota

  /** Admins get no history cap. */
  const AdminHistoryLimit := -1

  /** A row without `historyLimit` counts as 15 (`?? 15`). */
  const DefaultHistoryLimit := 15

  /** What the gate hands to the proxy: the history cap and, for a
      non-admin, the charged principal to save once upstream succeeds. */
  datatype Grant = Grant(historyLimit: int, toUpdate: Option<Principal>)

  /** `containedIn('roleName', roles)`: the rows naming one of `roles`, in
      table order. */
  function Matching(table: seq<RolePermission>, roles: seq<string>): (rows: seq<RolePermission>)
    ensures |rows| <= |table|
    ensures forall x :: x in rows <==> x in table && x.roleName in roles
  {
    if |table| == 0 then []
    else
      var rest := Matching(table[1..], roles);
      assert forall x :: x in table <==> x == table[0] || x in table[1..];
      if table[0].roleName in roles then [table[0]] + rest else rest
  }

  function HistoryOf(row: RolePermission): int {
    row.historyLimit.GetOr(DefaultHistoryLimit)
  }

  /** `Math.max(...permissions.map(p => p.get('historyLimit') ?? 15))`. Only
      an absent value becomes 15; an explicit 0 stays 0. */
  function HistoryLimit(rows: seq<RolePermission>): (h: int)
    requires |rows| > 0
    ensures forall i :: 0 <= i < |rows| ==> HistoryOf(rows[i]) <= h
    ensures exists i :: 0 <= i < |rows| && HistoryOf(rows[i]) == h
  {
    if |rows| == 1 then HistoryOf(rows[0])
    else
      var rest := HistoryLimit(rows[1..]);
      assert forall i :: 1 <= i < |rows| ==> rows[i] == rows[1..][i - 1];
      if rest > HistoryOf(rows[0]) then rest else HistoryOf(rows[0])
  }

  /** The permission rows that apply to a user with these role memberships. */
  function RowsFor(memberRoles: seq<string>, table: seq<RolePermission>): seq<RolePermission> {
    Matching(table, UserRoles(Some(memberRoles)))
  }

  /** The gate: 401 without a user, an admin bypass that charges nothing,
      500 when no permission row applies, otherwise the history cap over the
      applying rows and the quota charge (429 passed through). */
  function GetApiPermission(
    user: Option<Principal>,
    admin: bool,
    memberRoles: seq<string>,
    table: seq<RolePermission>,
    cap: Capability,
    today: string): (r: Result<Grant>)
    ensures user.None? <==> r == Err(NotLoggedIn)
    ensures user.Some? && admin ==> r == Ok(Grant(AdminHistoryLimit, None))
    ensures user.Some? && !admin ==>
      (r == Err(PermissionRowsMissing) <==>
         forall x :: x in table ==> x.roleName !in memberRoles && x.roleName != UserRole)
    ensures r.Ok? && !admin ==>
      && user.Some? && r.value.toUpdate.Some?
      && Charge(user.value, cap, RowsFor(memberRoles, table), today) == Ok(r.value.toUpdate.value)
      && (forall x :: x in table && x.roleName in UserRoles(Some(memberRoles)) ==>
            HistoryOf(x) <= r.value.historyLimit)
      && (exists x :: x in table && x.roleName in UserRoles(Some(memberRoles))
            && HistoryOf(x) == r.value.historyLimit)
    ensures user.Some? && !admin && |RowsFor(memberRoles, table)| > 0 ==>
      && (r.Ok? <==> Charge(user.value, cap, RowsFor(memberRoles, table), today).Ok?)
      && (r.Err? ==> r.error == Charge(user.value, cap, RowsFor(memberRoles, table), today).error)
    ensures r.Err? && r.error.QuotaExceeded? ==>
      !admin && r.error == QuotaExceeded(cap, DailyLimit(RowsFor(memberRoles, table), cap))
  {
    if user.None? then Err(NotLoggedIn)
    else if admin then Ok(Grant(AdminHistoryLimit, None))
    else
      var roles := UserRoles(Some(memberRoles));
      var rows := Matching(table, roles);
      if |rows| == 0 then
        assert forall x :: x in table ==> x.roleName !in roles;
        Err(PermissionRowsMissing)
      else
        var history := HistoryLimit(rows);
        assert exists i :: 0 <= i < |rows| && HistoryOf(rows[i]) == history;
        var charged :- Charge(user.value, cap, rows, today);
        Ok(Grant(history, Some(charged)))
  }
}

=== FILE: profile.dfy ===
/** The validation in `updateUserProfile` (cloud.js:323-361). A nickname is
    trimmed and must be 2 to 15 characters long; a changed nickname must not
    belong to another user; a bio must be a string of at most 100
    characters. Both fields are optional. `takenNames` stands for the
    usernames the `_User` query would find. */
module Profile {
  import opened Api
  import opened JsStrings

  const MinNickname := 2
  const MaxNickname := 15
  const MaxBio := 100

  datatype ProfileUser = ProfileUser(username: string, bio: string)

  /** The `bio` parameter: a string, or a value of another type. */
  datatype BioParam = Text(s: string) | NotText

  predicate NicknameFits(name: string) {
    MinNickname <= |name| <= MaxNickname
  }

  /** The nickname check passes: no nickname was sent, or its trimmed form
      fits and is the user's own or nobody else's. */
  predicate NicknameAccepted(current: string, username: Option<string>, takenNames: set<string>) {
    || username.None?
    || (&& NicknameFits(Trim(username.value))
        && (Trim(username.value) == current || Trim(username.value) !in takenNames))
  }

  /** The bio check passes: no bio was sent, or a short enough string. */
  predicate BioAccepted(bio: Option<BioParam>) {
    bio.None? || (bio.value.Text? && |bio.value.s| <= MaxBio)
  }

  function UpdateUserProfile(
    header: string,
    user: Option<ProfileUser>,
    username: Option<string>,
    bio: Option<BioParam>,
    takenNames: set<string>): (r: Result<ProfileUser>)
    ensures |header| == 0 ==> r == Err(InvalidClient)
    ensures |header| > 0 && user.None? ==> r == Err(NotLoggedIn)
    ensures r.Ok? <==>
      |header| > 0 && user.Some? && NicknameAccepted(user.value.username, username, takenNames) && BioAccepted(bio)
    // the nickname: unchanged when absent, else trimmed, of the right
    // length, and either the user's own or nobody else's
    ensures r.Ok? && username.None? ==> r.value.username == user.value.username
    ensures r.Ok? && username.Some? ==>
      && r.value.username == Trim(username.value)
      && NicknameFits(r.value.username)
      && (r.value.username == user.value.username || r.value.username !in takenNames)
    // the bio: unchanged when absent, else a short enough string
    ensures r.Ok? && bio.None? ==> r.value.bio == user.value.bio
    ensures r.Ok? && bio.Some? ==> bio.value.Text? && r.value.bio == bio.value.s && |r.value.bio| <= MaxBio
    // every rejection is the first failing check, and nothing is saved
    ensures r == Err(NicknameTaken) <==>
      && |header| > 0 && user.Some? && username.Some? && NicknameFits(Trim(username.value))
      && Trim(username.value) in takenNames && Trim(username.value) != user.value.username
    ensures r == Err(NicknameLength) <==>
      |header| > 0 && user.Some? && username.Some? && !NicknameFits(Trim(username.value))
    ensures r == Err(BioInvalid) <==>
      |header| > 0 && user.Some? && NicknameAccepted(user.value.username, username, takenNames) && !BioAccepted(bio)
  {
    var _ :- CheckSession(header);
    if user.None? then Err(NotLoggedIn)
    else
      var name :-
        if username.None? then Ok(user.value.username)
        else
          var trimmed := Trim(username.value);
          if !NicknameFits(trimmed) then Err(NicknameLength)
          else if trimmed != user.value.username && trimmed in takenNames then Err(NicknameTaken)
          else Ok(trimmed);
      var newBio :-
        if bio.None? then Ok(user.value.bio)
        else if bio.value.NotText? || |bio.value.s| > MaxBio then Err(BioInvalid)
        else Ok(bio.value.s);
      Ok(ProfileUser(name, newBio))
  }

  /** Submitting the same form again after it was accepted is accepted
      again with the same profile, even though the query would now find the
      new nickname taken (by the user themself). */
  lemma ResubmitIsIdempotent(
    header: string, user: ProfileUser, username: Option<string>, bio: Option<BioParam>,
    takenNames: set<string>)
    requires UpdateUserProfile(header, Some(user), username, bio, takenNames).Ok?
    ensures var updated := UpdateUserProfile(header, Some(user), username, bio, takenNames).value;
            UpdateUserProfile(header, Some(updated), username, bio, takenNames + {updated.username})
              == Ok(updated)
  {
  }
}

=== FILE: providers.dfy ===
/** Upstream credentials and endpoints: `getApiKey` (cloud.js:92-106) and
    the LLM endpoint table (cloud.js:177-186). The environment is an
    immutable configuration record; an unset variable is the empty string,
    which the source's `!apiKey` rejects just like `undefined`. */
module Providers {
  import opened Api

  datatype Config = Config(
    deepseekKey: string,       // DEEPSEEK_API_KEY
    siliconflowKey: string,    // SILICONFLOW_API_KEY
    geminiKey: string,         // GEMINI_API_KEY
    minimaxKey: string,        // MINIMAX_API_KEY
    minimaxGroupId: string)    // MINIMAX_GROUP_ID

  /** The providers `getApiKey` knows, with their credentials. */
  function KeyMap(c: Config): map<string, string> {
    map[
      "deepseek" := c.deepseekKey,
      "siliconflow" := c.siliconflowKey,
      "gemini" := c.geminiKey,
      "minimax" := c.minimaxKey,
      "minimax_group" := c.minimaxGroupId]
  }

  /** The LLM chat-completion endpoints of `proxyLlmRequest`. */
  const Endpoints: map<string, string> := map[
    "deepseek" := "https://api.deepseek.com/chat/completions",
    "siliconflow" := "https://api.siliconflow.cn/v1/chat/completions",
    "gemini" := "https://api.ssopen.top/v1/chat/completions"]

  /** `getApiKey`: 500 for a provider the key map does not know and for one
      whose credential is unset; otherwise that credential. */
  function GetApiKey(c: Config, provider: string): (r: Result<string>)
    ensures r.Ok? <==> provider in KeyMap(c) && KeyMap(c)[provider] != ""
    ensures r.Ok? ==> r.value == KeyMap(c)[provider]
    ensures r.Err? ==> r.error == KeyUnset(provider) && Code(r.error) == 500
  {
    if provider in KeyMap(c) && KeyMap(c)[provider] != "" then Ok(KeyMap(c)[provider])
    else Err(KeyUnset(provider))
  }

  /** Every provider with an LLM endpoint has a key entry, and the two
      MiniMax entries have a key entry but no LLM endpoint. */
  lemma EndpointsNeedKeys(c: Config)
    ensures Endpoints.Keys <= KeyMap(c).Keys
    ensures KeyMap(c).Keys - Endpoints.Keys == {"minimax", "minimax_group"}
  {
    assert "minimax" != "deepseek" && "minimax" != "siliconflow" && "minimax" != "gemini";
    assert "minimax_group" != "deepseek" && "minimax_group" != "siliconflow" && "minimax_group" != "gemini";
  }
}

=== FILE: proxy.dfy ===
/** `proxyLlmRequest` (cloud.js:163-222) and `proxyTtsRequest`
    (cloud.js:227-304). Each is split in two: a plan, the ordered chain of
    checks that runs before the network call and yields the charged grant
    and the upstream request; and the exchange, which takes the upstream
    outcome as an input and decides the reply and what the user record in
    the store holds afterwards. The charged principal is saved only when the
    upstream call resolves; every failure leaves the stored record as it
    was. */
module Proxy {
  import opened Api
  import opened Quota
  import opened Permission
  import opened Providers

  /** Who is calling: the session header, the current user (if any), the
      `isAdmin` answer and the names of the roles the user is a member of. */
  datatype Caller = Caller(
    sessionHeader: string,
    user: Option<Principal>,
    admin: bool,
    memberRoles: seq<string>)

  datatype ChatMessage = ChatMessage(role: string, content: string)

  /** The client's parameters; an empty string is a missing one. An empty
      message list is present (an array is truthy). */
  datatype LlmParams = LlmParams(
    serviceProvider: string,
    modelName: string,
    messages: Option<seq<ChatMessage>>)

  /** The chat-completion call sent upstream (`temperature` is left out). */
  datatype ChatRequest = ChatRequest(
    url: string,
    apiKey: string,
    model: string,
    messages: seq<ChatMessage>,
    stream: bool)

  /** What the upstream call did: it resolved with a payload (streamed or
      JSON) or it rejected. */
  datatype Upstream = Delivered(payload: string) | Failed

  /** A successful reply: the request that was sent and the payload relayed
      to the client unchanged. */
  datatype Relay<T> = Relay(request: T, payload: string)

  /** A call's reply and the caller's record in the store afterwards. */
  datatype Exchange<T> = Exchange(result: Result<Relay<T>>, stored: Option<Principal>)

  /** `if (permission.userToUpdate) save(...)`: the record the store holds
      once the upstream call has resolved. */
  function Commit(user: Option<Principal>, grant: Grant): Option<Principal> {
    if grant.toUpdate.Some? then grant.toUpdate else user
  }

  // --------------------------------------------------------------- LLM

  /** The gate the caller meets for a capability. */
  function Gate(caller: Caller, table: seq<RolePermission>, cap: Capability, today: string): Result<Grant> {
    GetApiPermission(caller.user, caller.admin, caller.memberRoles, table, cap, today)
  }

  /** `!serviceProvider || !modelName || !messages` is false. */
  predicate LlmParamsPresent(params: LlmParams) {
    params.serviceProvider != "" && params.modelName != "" && params.messages.Some?
  }

  /** Session (403), gate (401/500/429, charging in memory), parameters
      (400), credential (500), endpoint (400), then the streaming body. */
  function LlmPlan(
    caller: Caller, table: seq<RolePermission>, today: string, config: Config, params: LlmParams)
    : (r: Result<(Grant, ChatRequest)>)
    ensures |caller.sessionHeader| == 0 ==> r == Err(InvalidClient)
    ensures |caller.sessionHeader| > 0 && Gate(caller, table, Llm, today).Err? ==>
      r == Err(Gate(caller, table, Llm, today).error)
    ensures |caller.sessionHeader| > 0 && Gate(caller, table, Llm, today).Ok? && !LlmParamsPresent(params) ==>
      r == Err(LlmParamsMissing)
    ensures (&& |caller.sessionHeader| > 0 && Gate(caller, table, Llm, today).Ok? && LlmParamsPresent(params)
             && GetApiKey(config, params.serviceProvider).Err?) ==>
      r == Err(KeyUnset(params.serviceProvider))
    ensures (&& |caller.sessionHeader| > 0 && Gate(caller, table, Llm, today).Ok? && LlmParamsPresent(params)
             && GetApiKey(config, params.serviceProvider).Ok? && params.serviceProvider !in Endpoints) ==>
      r == Err(UnsupportedProvider(params.serviceProvider))
    ensures r.Ok? <==>
      && |caller.sessionHeader| > 0 && Gate(caller, table, Llm, today).Ok? && LlmParamsPresent(params)
      && params.serviceProvider in Endpoints && params.serviceProvider in KeyMap(config)
      && KeyMap(config)[params.serviceProvider] != ""
    ensures r.Ok? ==>
      && r.value.0 == Gate(caller, table, Llm, today).value
      && r.value.1 == ChatRequest(Endpoints[params.serviceProvider],
           KeyMap(config)[params.serviceProvider], params.modelName, params.messages.value, true)
  {
    var _ :- CheckSession(caller.sessionHeader);
    var grant :- Gate(caller, table, Llm, today);
    if !LlmParamsPresent(params) then
      Err(LlmParamsMissing)
    else
      var key :- GetApiKey(config, params.serviceProvider);
      if params.serviceProvider !in Endpoints then Err(UnsupportedProvider(params.serviceProvider))
      else
        Ok((grant, ChatRequest(Endpoints[params.serviceProvider], key, params.modelName,
                               params.messages.value, true)))
  }

  function ProxyLlm(
    caller: Caller, table: seq<RolePermission>, today: string, config: Config,
    params: LlmParams, upstream: Upstream): (x: Exchange<ChatRequest>)
    ensures x.result.Err? ==> x.stored == caller.user
    ensures x.stored != caller.user ==> x.result.Ok? && upstream.Delivered?
    ensures x.result.Ok? ==>
      && upstream.Delivered? && x.result.value.payload == upstream.payload
      && |caller.sessionHeader| > 0 && caller.user.Some?
      && params.serviceProvider in Endpoints && params.messages.Some?
      && x.result.value.request == ChatRequest(Endpoints[params.serviceProvider],
           KeyMap(config)[params.serviceProvider], params.modelName, params.messages.value, true)
    ensures x.result.Ok? && caller.admin ==> x.stored == caller.user
    ensures x.result.Ok? && !caller.admin ==>
      && x.stored.Some? && caller.user.Some?
      && Charge(caller.user.value, Llm, RowsFor(caller.memberRoles, table), today) == Ok(x.stored.value)
    ensures upstream.Failed? ==> x.result.Err?
    // the plan decides: its error, a 502 for a rejected upstream, or the
    // relayed payload with the charge committed
    ensures LlmPlan(caller, table, today, config, params).Err? ==>
      x == Exchange(Err(LlmPlan(caller, table, today, config, params).error), caller.user)
    ensures LlmPlan(caller, table, today, config, params).Ok? && upstream.Failed? ==>
      x == Exchange(Err(UpstreamFailed(params.serviceProvider)), caller.user)
    ensures LlmPlan(caller, table, today, config, params).Ok? && upstream.Delivered? ==>
      && x.result.Ok?
      && x.stored == Commit(caller.user, LlmPlan(caller, table, today, config, params).value.0)
  {
    match LlmPlan(caller, table, today, config, params)
    case Err(e) => Exchange(Err(e), caller.user)
    case Ok((grant, request)) =>
      match upstream
      case Failed => Exchange(Err(UpstreamFailed(params.serviceProvider)), caller.user)
      case Delivered(payload) => Exchange(Ok(Relay(request, payload)), Commit(caller.user, grant))
  }

  /** The quota is checked before the parameters: a caller out of quota is
      told 429 even when the request is also malformed, and nothing is
      stored. */
  lemma LlmQuotaBeforeParams(
    caller: Caller, table: seq<RolePermission>, today: string, config: Config,
    params: LlmParams, upstream: Upstream)
    requires |caller.sessionHeader| > 0 && caller.user.Some? && !caller.admin
    requires |RowsFor(caller.memberRoles, table)| > 0
    requires Charge(caller.user.value, Llm, RowsFor(caller.memberRoles, table), today).Err?
    ensures var x := ProxyLlm(caller, table, today, config, params, upstream);
            && x.result == Err(QuotaExceeded(Llm, DailyLimit(RowsFor(caller.memberRoles, table), Llm)))
            && x.stored == caller.user
  {
  }

  /** A separate step so that the delivery lemmas below stay within the
      verifier's resource limit. */
  lemma UpstreamFailureIs502(service: string)
    ensures Code(UpstreamFailed(service)) == 502
  {
  }

  /** Charge on success: once every check passes, a non-admin's stored
      record gains one llm call (after the day rollover) exactly when the
      upstream delivers; a rejected upstream is a 502 and stores nothing. */
  lemma LlmChargedOnlyOnDelivery(
    caller: Caller, table: seq<RolePermission>, today: string, config: Config,
    params: LlmParams, payload: string)
    ensures var failed := ProxyLlm(caller, table, today, config, params, Failed);
            && failed.result.Err? && failed.stored == caller.user
            && (LlmPlan(caller, table, today, config, params).Ok? ==> Code(failed.result.error) == 502)
    ensures var done := ProxyLlm(caller, table, today, config, params, Delivered(payload));
            caller.user.Some? && !caller.admin && LlmPlan(caller, table, today, config, params).Ok? ==>
              && done.result.Ok? && done.result.value.payload == payload
              && done.stored == Some(Increment(Rollover(caller.user.value, today), Llm))
  {
    var plan := LlmPlan(caller, table, today, config, params);
    if plan.Ok? {
      assert ProxyLlm(caller, table, today, config, params, Failed).result
          == Err(UpstreamFailed(params.serviceProvider));
      UpstreamFailureIs502(params.serviceProvider);
    }
    if plan.Ok? && caller.user.Some? && !caller.admin {
      var g := GetApiPermission(caller.user, caller.admin, caller.memberRoles, table, Llm, today);
      assert g == Gate(caller, table, Llm, today);
      assert g.Ok?;
      var rows := RowsFor(caller.memberRoles, table);
      assert g.value.toUpdate.Some? && Charge(caller.user.value, Llm, rows, today) == Ok(g.value.toUpdate.value);
      ChargeIsRolledIncrement(caller.user.value, Llm, rows, today);
      assert plan.value.0 == g.value;
    }
  }

  /** Provider resolution once the gate and the parameter check pass: a
      provider the key map does not know, or whose key is unset, is a 500;
      the MiniMax entries pass the key lookup but have no chat endpoint
      (400); the three chat providers get a streaming request. */
  lemma ProviderResolution(
    caller: Caller, table: seq<RolePermission>, today: string, config: Config, params: LlmParams)
    ensures var r := LlmPlan(caller, table, today, config, params);
            |caller.sessionHeader| > 0 && Gate(caller, table, Llm, today).Ok? && LlmParamsPresent(params) ==>
            && (params.serviceProvider !in KeyMap(config) ==> r == Err(KeyUnset(params.serviceProvider)))
            && (params.serviceProvider in KeyMap(config) && KeyMap(config)[params.serviceProvider] == "" ==>
                  r == Err(KeyUnset(params.serviceProvider)))
            && (params.serviceProvider in {"minimax", "minimax_group"} &&
                KeyMap(config)[params.serviceProvider] != "" ==>
                  r == Err(UnsupportedProvider(params.serviceProvider)))
            && (params.serviceProvider in Endpoints &&
                KeyMap(config)[params.serviceProvider] != "" ==>
                  && r.Ok? && r.value.1.stream && r.value.1.model == params.modelName
                  && r.value.1.messages == params.messages.value)
  {
    EndpointsNeedKeys(config);
  }

  // --------------------------------------------------------------- TTS

  const TtsModel := "speech-02-hd"
  const DefaultVoice := "female-yujie"
  const TtsEndpointPrefix := "https://api.minimaxi.com/v1/t2a_v2?GroupId="

  /** The emotions that have their own voice settings. */
  const Emotions: set<string> := {"angry", "sad", "happy", "fearful", "surprised", "neutral"}

  /** The key whose voice settings are used: an unknown or absent emotion
      falls back to 'neutral'. */
  function EmotionKey(emotion: string): (k: string)
    ensures k in Emotions
    ensures emotion in Emotions ==> k == emotion
    ensures emotion !in Emotions ==> k == "neutral"
  {
    if emotion in Emotions then emotion else "neutral"
  }

  datatype TtsParams = TtsParams(
    voiceType: string,
    systemVoiceId: string,
    customVoiceId: string,
    customApiKey: string,
    text: string,
    emotion: string)

  /** The synthesis call sent upstream (numeric voice settings left out). */
  datatype TtsRequest = TtsRequest(
    url: string,
    apiKey: string,
    model: string,
    text: string,
    voiceId: string,
    emotion: string,
    sampleRate: int,
    bitrate: int,
    format: string)

  /** The credential and voice: a custom voice brings its own key and id;
      otherwise the server's MiniMax key and the chosen or default voice. */
  function VoiceChoice(config: Config, params: TtsParams): (r: Result<(string, string)>)
    ensures params.voiceType == "custom" ==>
      (r.Ok? <==> params.customApiKey != "" && params.customVoiceId != "")
    ensures params.voiceType == "custom" && r.Ok? ==> r.value == (params.customApiKey, params.customVoiceId)
    ensures params.voiceType == "custom" && r.Err? ==> r.error == CustomVoiceIncomplete
    ensures params.voiceType != "custom" ==> (r.Ok? <==> config.minimaxKey != "")
    ensures params.voiceType != "custom" && r.Err? ==> r.error == KeyUnset("minimax")
    ensures params.voiceType != "custom" && r.Ok? ==>
      r.value == (config.minimaxKey, if params.systemVoiceId == "" then DefaultVoice else params.systemVoiceId)
  {
    if params.voiceType == "custom" then
      if params.customApiKey == "" || params.customVoiceId == "" then Err(CustomVoiceIncomplete)
      else Ok((params.customApiKey, params.customVoiceId))
    else
      var key :- GetApiKey(config, "minimax");
      Ok((key, if params.systemVoiceId == "" then DefaultVoice else params.systemVoiceId))
  }

  /** `!text || !voiceType` is false. */
  predicate TtsParamsPresent(params: TtsParams) {
    params.text != "" && params.voiceType != ""
  }

  /** Session (403), gate (401/500/429), text and voice type (400), voice
      choice (400/500), group id (500), then the synthesis body. */
  function TtsPlan(
    caller: Caller, table: seq<RolePermission>, today: string, config: Config, params: TtsParams)
    : (r: Result<(Grant, TtsRequest)>)
    ensures |caller.sessionHeader| == 0 ==> r == Err(InvalidClient)
    ensures |caller.sessionHeader| > 0 && Gate(caller, table, Tts, today).Err? ==>
      r == Err(Gate(caller, table, Tts, today).error)
    ensures |caller.sessionHeader| > 0 && Gate(caller, table, Tts, today).Ok? && !TtsParamsPresent(params) ==>
      r == Err(TtsParamsMissing)
    ensures (&& |caller.sessionHeader| > 0 && Gate(caller, table, Tts, today).Ok? && TtsParamsPresent(params)
             && VoiceChoice(config, params).Err?) ==>
      r == Err(VoiceChoice(config, params).error)
    ensures (&& |caller.sessionHeader| > 0 && Gate(caller, table, Tts, today).Ok? && TtsParamsPresent(params)
             && VoiceChoice(config, params).Ok? && config.minimaxGroupId == "") ==>
      r == Err(KeyUnset("minimax_group"))
    ensures r.Ok? <==>
      && |caller.sessionHeader| > 0 && Gate(caller, table, Tts, today).Ok? && TtsParamsPresent(params)
      && VoiceChoice(config, params).Ok? && config.minimaxGroupId != ""
    ensures r.Ok? ==>
      && r.value.0 == Gate(caller, table, Tts, today).value
      && r.value.1 == TtsRequest(TtsEndpointPrefix + config.minimaxGroupId,
           VoiceChoice(config, params).value.0, TtsModel, params.text, VoiceChoice(config, params).value.1,
           EmotionKey(params.emotion), 24000, 128000, "mp3")
  {
    var _ :- CheckSession(caller.sessionHeader);
    var grant :- Gate(caller, table, Tts, today);
    if !TtsParamsPresent(params) then Err(TtsParamsMissing)
    else
      var (key, voice) :- VoiceChoice(config, params);
      var group :- GetApiKey(config, "minimax_group");
      Ok((grant, TtsRequest(TtsEndpointPrefix + group, key, TtsModel, params.text, voice,
                            EmotionKey(params.emotion), 24000, 128000, "mp3")))
  }

  function ProxyTts(
    caller: Caller, table: seq<RolePermission>, today: string, config: Config,
    params: TtsParams, upstream: Upstream): (x: Exchange<TtsRequest>)
    ensures x.result.Err? ==> x.stored == caller.user
    ensures x.stored != caller.user ==> x.result.Ok? && upstream.Delivered?
    ensures x.result.Ok? ==>
      && upstream.Delivered? && x.result.value.payload == upstream.payload
      && |caller.sessionHeader| > 0 && caller.user.Some?
      && params.text != "" && x.result.value.request.text == params.text
      && x.result.value.request.url == TtsEndpointPrefix + config.minimaxGroupId
      && config.minimaxGroupId != ""
      && x.result.value.request.emotion in Emotions
    ensures x.result.Ok? && params.voiceType == "custom" ==>
      && x.result.value.request.apiKey == params.customApiKey
      && x.result.value.request.voiceId == params.customVoiceId
    ensures x.result.Ok? && params.voiceType != "custom" ==>
      && x.result.value.request.apiKey == config.minimaxKey
      && x.result.value.request.voiceId ==
           (if params.systemVoiceId == "" then DefaultVoice else params.systemVoiceId)
    ensures x.result.Ok? && caller.admin ==> x.stored == caller.user
    ensures x.result.Ok? && !caller.admin ==>
      && x.stored.Some? && caller.user.Some?
      && Charge(caller.user.value, Tts, RowsFor(caller.memberRoles, table), today) == Ok(x.stored.value)
    ensures upstream.Failed? ==> x.result.Err?
    ensures TtsPlan(caller, table, today, config, params).Err? ==>
      x == Exchange(Err(TtsPlan(caller, table, today, config, params).error), caller.user)
    ensures TtsPlan(caller, table, today, config, params).Ok? && upstream.Failed? ==>
      x == Exchange(Err(UpstreamFailed("minimax")), caller.user)
    ensures TtsPlan(caller, table, today, config, params).Ok? && upstream.Delivered? ==>
      && x.result.Ok?
      && x.stored == Commit(caller.user, TtsPlan(caller, table, today, config, params).value.0)
  {
    match TtsPlan(caller, table, today, config, params)
    case Err(e) => Exchange(Err(e), caller.user)
    case Ok((grant, request)) =>
      match upstream
      case Failed => Exchange(Err(UpstreamFailed("minimax")), caller.user)
      case Delivered(payload) => Exchange(Ok(Relay(request, payload)), Commit(caller.user, grant))
  }

  /** The first call of a day that fails upstream leaves the stored record
      with its old date and counters; the same call delivered stores the new
      date with a tts count of 1 and an llm count of 0. */
  lemma TtsFirstCallOfDay(
    caller: Caller, table: seq<RolePermission>, today: string, config: Config, params: TtsParams,
    payload: string)
    ensures ProxyTts(caller, table, today, config, params, Failed).stored == caller.user
    ensures var s := ProxyTts(caller, table, today, config, params, Delivered(payload)).stored;
            (&& caller.user.Some? && !caller.admin && caller.user.value.lastCallDate != Some(today)
             && TtsPlan(caller, table, today, config, params).Ok?) ==>
              && s.Some? && s.value.lastCallDate == Some(today)
              && s.value.ttsCallCount == 1 && s.value.llmCallCount == 0
  {
    var plan := TtsPlan(caller, table, today, config, params);
    if plan.Ok? && caller.user.Some? && !caller.admin {
      var g := GetApiPermission(caller.user, caller.admin, caller.memberRoles, table, Tts, today);
      assert g == Gate(caller, table, Tts, today);
      assert g.Ok?;
      var rows := RowsFor(caller.memberRoles, table);
      assert g.value.toUpdate.Some? && Charge(caller.user.value, Tts, rows, today) == Ok(g.value.toUpdate.value);
      ChargeIsRolledIncrement(caller.user.value, Tts, rows, today);
      assert plan.value.0 == g.value;
    }
  }
}

=== FILE: publish.dfy ===
/** `publishApprovedCharacters` (cloud.js:799-858): every approved
    submission, in query order, is given the next id after the largest
    existing character id (0 when there is none), then its character is
    saved and the submission marked 'published'. The id is taken before
    anything can fail, so a failed submission still uses up its id. */
module Publishing {
  import opened Api
  import opened Characters

  /** Where a submission's attempt stops: everything saved, the character
      save throwing, or the submission's status save throwing after its
      character was saved. */
  datatype Fate = Saves | CharacterSaveFails | StatusSaveFails

  /** An approved submission; `data` is None when `characterData` is
      missing, which throws once the character is being filled in. The save
      outcomes are inputs, as `fate`. */
  datatype Submission = Submission(
    id: string,
    data: Option<CharacterText>,
    imageUrl: string,
    submitter: Option<Author>,
    fate: Fate)

  datatype PublishReport =
    | NothingToPublish
    | Published(created: seq<Character>, published: seq<string>, failed: seq<string>)

  /** The id before the first new one: the largest existing id, or 0. */
  function StartId(existing: seq<int>): (m: int)
    ensures |existing| == 0 ==> m == 0
    ensures forall i :: 0 <= i < |existing| ==> existing[i] <= m
    ensures |existing| > 0 ==> exists i :: 0 <= i < |existing| && existing[i] == m
  {
    if |existing| == 0 then 0
    else if |existing| == 1 then existing[0]
    else
      var rest := StartId(existing[1..]);
      assert forall i :: 1 <= i < |existing| ==> existing[i] == existing[1..][i - 1];
      if rest > existing[0] then rest else existing[0]
  }

  /** The character a submission leaves in the table when given `id`. */
  function Make(s: Submission, id: int): Option<Character> {
    if s.data.None? || s.fate == CharacterSaveFails then None
    else Some(Character(id, s.data.value, s.imageUrl, s.submitter))
  }

  function AsSeq(o: Option<Character>): seq<Character> {
    if o.Some? then [o.value] else []
  }

  /** The characters `subs` leave behind when the `k`-th (from 0) is given
      the id `base + k + 1`. */
  function Created(subs: seq<Submission>, base: int): seq<Character> {
    if |subs| == 0 then []
    else Created(subs[..|subs| - 1], base) + AsSeq(Make(subs[|subs| - 1], base + |subs|))
  }

  /** The numbering: the created characters' ids strictly increase and lie
      in (base, base + |subs|], and each is the character the `k`-th
      submission builds with id `base + k + 1`. */
  lemma {:induction false} CreatedNumbering(subs: seq<Submission>, base: int)
    ensures var cs := Created(subs, base);
            && |cs| <= |subs|
            && (forall i, j :: 0 <= i < j < |cs| ==> cs[i].id < cs[j].id)
            && (forall i :: 0 <= i < |cs| ==> base < cs[i].id <= base + |subs|)
            && (forall i :: 0 <= i < |cs| ==>
                  exists k :: 0 <= k < |subs| && cs[i].id == base + k + 1 && Make(subs[k], cs[i].id) == Some(cs[i]))
  {
    if |subs| > 0 {
      var n := |subs|;
      CreatedNumbering(subs[..n - 1], base);
      assert forall k :: 0 <= k < n - 1 ==> subs[..n - 1][k] == subs[k];
    }
  }

  /** Whether a submission gets all the way to 'published'. */
  predicate Publishes(s: Submission) {
    s.data.Some? && s.fate == Saves
  }

  /** The submission's id in the success list, and in the failure list. */
  function Won(s: Submission): seq<string> {
    if Publishes(s) then [s.id] else []
  }

  function Lost(s: Submission): seq<string> {
    if Publishes(s) then [] else [s.id]
  }

  /** Submission ids that were marked 'published', and those reported as
      failed. */
  function Succeeded(subs: seq<Submission>): seq<string> {
    if |subs| == 0 then [] else Succeeded(subs[..|subs| - 1]) + Won(subs[|subs| - 1])
  }

  function Failed(subs: seq<Submission>): seq<string> {
    if |subs| == 0 then [] else Failed(subs[..|subs| - 1]) + Lost(subs[|subs| - 1])
  }

  /** Every submission is counted once, as a success or as a failure. */
  lemma {:induction false} EveryAttemptReported(subs: seq<Submission>)
    ensures |Succeeded(subs)| + |Failed(subs)| == |subs|
  {
    if |subs| > 0 {
      EveryAttemptReported(subs[..|subs| - 1]);
    }
  }

  /** The whole-list definitions, extended by one submission. */
  lemma StepOne(subs: seq<Submission>, base: int, i: nat)
    requires i < |subs|
    ensures Created(subs[..i + 1], base) == Created(subs[..i], base) + AsSeq(Make(subs[i], base + i + 1))
    ensures Succeeded(subs[..i + 1]) == Succeeded(subs[..i]) + Won(subs[i])
    ensures Failed(subs[..i + 1]) == Failed(subs[..i]) + Lost(subs[i])
  {
    var p := subs[..i + 1];
    assert p[..i] == subs[..i];
    assert p[i] == subs[i];
  }

  /** The publishing loop. */
  method PublishApproved(subs: seq<Submission>, existing: seq<int>) returns (report: PublishReport)
    ensures |subs| == 0 <==> report == NothingToPublish
    ensures |subs| > 0 ==>
      report == Published(Created(subs, StartId(existing)), Succeeded(subs), Failed(subs))
  {
    if |subs| == 0 {
      return NothingToPublish;
    }
    var base := StartId(existing);
    var maxId := base;
    var created: seq<Character> := [];
    var published: seq<string> := [];
    var failed: seq<string> := [];
    var i := 0;
    while i < |subs|
      invariant 0 <= i <= |subs|
      invariant maxId == base + i
      invariant created == Created(subs[..i], base)
      invariant published == Succeeded(subs[..i])
      invariant failed == Failed(subs[..i])
    {
      var s := subs[i];
      maxId := maxId + 1;
      StepOne(subs, base, i);
      created := created + AsSeq(Make(s, maxId));
      published := published + Won(s);
      failed := failed + Lost(s);
      i := i + 1;
    }
    assert subs[..i] == subs;
    report := Published(created, published, failed);
  }

  /** No new id meets an existing one. */
  lemma NewIdsAreFresh(subs: seq<Submission>, existing: seq<int>)
    ensures forall c, x :: c in Created(subs, StartId(existing)) && x in existing ==> c.id > x
  {
    CreatedNumbering(subs, StartId(existing));
  }

  /** A submission that leaves no character still uses up its id: no
      character gets the id `base + k + 1` of a failed `k`-th submission. */
  lemma FailedIdIsSkipped(subs: seq<Submission>, base: int, k: nat)
    requires k < |subs| && Make(subs[k], base + k + 1).None?
    ensures forall c :: c in Created(subs, base) ==> c.id != base + k + 1
  {
    var cs := Created(subs, base);
    CreatedNumbering(subs, base);
    forall c | c in cs
      ensures c.id != base + k + 1
    {
      var i :| 0 <= i < |cs| && cs[i] == c;
      var j :| 0 <= j < |subs| && cs[i].id == base + j + 1 && Make(subs[j], cs[i].id) == Some(cs[i]);
    }
  }

  /** A submission whose character was saved but whose status save threw is
      reported as failed, yet its character is in the table, and the
      submission is still 'approved'. */
  lemma StatusFailureStillCreates(subs: seq<Submission>, base: int)
    requires |subs| > 0
    requires subs[|subs| - 1].data.Some? && subs[|subs| - 1].fate == StatusSaveFails
    ensures subs[|subs| - 1].id in Failed(subs)
    ensures Created(subs, base)[|Created(subs, base)| - 1].id == base + |subs|
  {
  }
}

=== FILE: quota.dfy ===
/** The daily quota ledger, `checkAndIncrementUsage` (cloud.js:109-131): a
    lazy day rollover, a limit that is the maximum over the caller's
    permission rows, and either a 429 or an increment of exactly one
    counter. The increment is made on the in-memory user only; whether it
    is ever saved is decided by the proxy functions. `today` stands for the
    server's `YYYY-MM-DD` date string. */
module Quota {
  import opened Api

  /** The quota fields of a `_User` record. A counter that was never set is
      read as 0 (`|| 0`), and is stored here as 0. */
  datatype Principal = Principal(
    id: string,
    lastCallDate: Option<string>,
    llmCallCount: int,
    ttsCallCount: int)

  /** A row of the `RolePermission` table; each limit may be absent. */
  datatype RolePermission = RolePermission(
    roleName: string,
    llmLimit: Option<int>,
    ttsLimit: Option<int>,
    historyLimit: Option<int>)

  /** The counter `${usageType}CallCount`. */
  function Usage(p: Principal, cap: Capability): int {
    match cap
    case Llm => p.llmCallCount
    case Tts => p.ttsCallCount
  }

  function Other(cap: Capability): Capability {
    match cap
    case Llm => Tts
    case Tts => Llm
  }

  /** `user.increment(usageCountField, 1)`. */
  function Increment(p: Principal, cap: Capability): (q: Principal)
    ensures Usage(q, cap) == Usage(p, cap) + 1
    ensures Usage(q, Other(cap)) == Usage(p, Other(cap))
    ensures q.id == p.id && q.lastCallDate == p.lastCallDate
  {
    match cap
    case Llm => p.(llmCallCount := p.llmCallCount + 1)
    case Tts => p.(ttsCallCount := p.ttsCallCount + 1)
  }

  /** The lazy day rollover: a principal last charged on another day (or
      never) starts today with both counters at zero; on the same day
      nothing changes. */
  function Rollover(p: Principal, today: string): (q: Principal)
    ensures q.lastCallDate == Some(today) && q.id == p.id
    ensures p.lastCallDate != Some(today) ==> Usage(q, Llm) == 0 && Usage(q, Tts) == 0
    ensures p.lastCallDate == Some(today) ==> q == p
  {
    if p.lastCallDate != Some(today)
    then p.(lastCallDate := Some(today), llmCallCount := 0, ttsCallCount := 0)
    else p
  }

  /** `p.get('${usageType}Limit') || 0`: an absent limit counts as 0. */
  function LimitOf(row: RolePermission, cap: Capability): int {
    match cap
    case Llm => row.llmLimit.GetOr(0)
    case Tts => row.ttsLimit.GetOr(0)
  }

  /** `Math.max(...)` of the rows' limits for `cap`. */
  function DailyLimit(rows: seq<RolePermission>, cap: Capability): (c: Ceiling)
    ensures c.MinusInfinity? <==> |rows| == 0
    ensures c.Finite? ==> forall i :: 0 <= i < |rows| ==> LimitOf(rows[i], cap) <= c.n
    ensures c.Finite? ==> exists i :: 0 <= i < |rows| && LimitOf(rows[i], cap) == c.n
  {
    if |rows| == 0 then MinusInfinity
    else
      var rest := DailyLimit(rows[1..], cap);
      var first := LimitOf(rows[0], cap);
      if rest.Finite? && rest.n > first then
        assert forall i :: 1 <= i < |rows| ==> rows[i] == rows[1..][i - 1];
        Finite(rest.n)
      else
        assert forall i :: 1 <= i < |rows| ==> rows[i] == rows[1..][i - 1];
        Finite(first)
  }

  /** `checkAndIncrementUsage`: the charged principal, or 429 carrying the
      limit. The verdict compares the rolled-over usage with the limit. */
  function Charge(p: Principal, cap: Capability, rows: seq<RolePermission>, today: string): (r: Result<Principal>)
    ensures p.lastCallDate == Some(today) ==>
      && (r.Ok? <==> DailyLimit(rows, cap).Admits(Usage(p, cap)))
      && (r.Ok? ==> r.value == Increment(p, cap))
    ensures p.lastCallDate != Some(today) ==>
      && (r.Ok? <==> DailyLimit(rows, cap).Admits(0))
      && (r.Ok? ==> && r.value.id == p.id && r.value.lastCallDate == Some(today)
                    && Usage(r.value, cap) == 1 && Usage(r.value, Other(cap)) == 0)
    ensures r.Err? ==> r.error == QuotaExceeded(cap, DailyLimit(rows, cap)) && Code(r.error) == 429
  {
    var q := Rollover(p, today);
    var limit := DailyLimit(rows, cap);
    if !limit.Admits(Usage(q, cap)) then Err(QuotaExceeded(cap, limit))
    else Ok(Increment(q, cap))
  }

  /** An admitted charge is the rolled-over record with one more call. A
      separate step so that the proxy's delivery lemmas stay within the
      verifier's resource limit. */
  lemma ChargeIsRolledIncrement(p: Principal, cap: Capability, rows: seq<RolePermission>, today: string)
    requires Charge(p, cap, rows, today).Ok?
    ensures Charge(p, cap, rows, today).value == Increment(Rollover(p, today), cap)
  {
  }

  /** The stored principal after `n` calls made on the same day, each one
      saved only when admitted, and how many were admitted. */
  function Repeat(p: Principal, cap: Capability, rows: seq<RolePermission>, today: string, n: nat): (Principal, nat)
  {
    if n == 0 then (p, 0)
    else
      var (q, k) := Repeat(p, cap, rows, today, n - 1);
      match Charge(q, cap, rows, today)
      case Ok(q') => (q', k + 1)
      case Err(_) => (q, k)
  }

  function Min(a: int, b: int): int {
    if a < b then a else b
  }

  function Max(a: int, b: int): int {
    if a < b then b else a
  }

  /** Of `n` calls in one day, exactly as many are admitted as the limit
      leaves room for after the rollover; every admitted call adds one to
      the counter, and while none is admitted the stored record is left as
      it was. */
  lemma {:induction false} AdmitsExactlyTheRemainder(
    p: Principal, cap: Capability, rows: seq<RolePermission>, today: string, n: nat)
    requires |rows| > 0
    ensures var (final, admitted) := Repeat(p, cap, rows, today, n);
            var start := Usage(Rollover(p, today), cap);
            && admitted == Min(n, Max(DailyLimit(rows, cap).n - start, 0))
            && (admitted == 0 ==> final == p)
            && (admitted > 0 ==> final.lastCallDate == Some(today)
                                 && Usage(final, cap) == start + admitted
                                 && Usage(final, Other(cap)) == Usage(Rollover(p, today), Other(cap)))
  {
    if n > 0 {
      AdmitsExactlyTheRemainder(p, cap, rows, today, n - 1);
    }
  }
}

=== FILE: roles.dfy ===
/** `getUserRoles` (cloud.js:75-85): the role names a user holds, with the
    implicit 'User' role always present. The role-membership query is an
    input: the names of the roles whose `users` relation holds the user, in
    the order the query returns them. */
module Roles {
  import opened Api

  const UserRole := "User"

  /** `member` is None when there is no current user. */
  function UserRoles(member: Option<seq<string>>): (r: seq<string>)
    ensures UserRole in r
    ensures member.None? ==> r == [UserRole]
    ensures member.Some? ==>
      && |member.value| <= |r|
      && r[..|member.value|] == member.value
      && |r| == |member.value| + (if UserRole in member.value then 0 else 1)
  {
    match member
    case None => [UserRole]
    case Some(names) =>
      if |names| == 0 || UserRole !in names then names + [UserRole] else names
  }

  /** As a set, the resolved roles are the queried ones plus 'User'. */
  lemma RoleSetIsUnionWithUser(names: seq<string>)
    ensures (set x | x in UserRoles(Some(names))) == (set x | x in names) + {UserRole}
  {
    var r := UserRoles(Some(names));
    forall x | x in names
      ensures x in r
    {
      var i :| 0 <= i < |names| && names[i] == x;
      assert r[i] == x;
    }
  }
}
